=== FILE: README.md ===
# MultiPolygonSample renderer, modelled in Dafny

A model of the Direct3D 11 sample renderer: the `Direct3DBase` surface lifecycle and the
`CubeRenderer` frame renderer derived from it.

`Direct3DBase` holds the device, the swap chain and the window-size-dependent surface. The
surface consists of the render-target view, the depth-stencil view, the viewport and the 3D
orientation transform.

- `Initialize` creates the device, then the size-dependent resources.
- `UpdateForWindowSizeChange` rebuilds the size-dependent resources only when the window's
  size or the display orientation differs from the saved ones.
- `Present` presents, then discards both views. A device-removed result recovers through
  `HandleDeviceLost`; any other failing result throws.
- `HandleDeviceLost` forgets the saved size and the swap chain, recreates the device, and
  updates for the window size.

`CubeRenderer` loads two shaders, two three-vertex buffers, a shared index buffer `{0,1,2}` and
two rasterizer states (front-cull and back-cull), through a chain of tasks that ends by setting
`m_loadingComplete`. Every frame clears the target and the depth buffer. Once loading is
complete, the frame binds the targets, uploads the model/view/projection constants and draws
each object twice: once under each rasterizer state.

How the model is built:

- **The graphics API.** Calls to D3D11 and DXGI are not modelled as code. A `Gpu` parameter
  names the calls that fail. Each checked call that fails throws, as `ThrowIfFailed` does; the
  status is `Thrown(ApiFailed(call))`.
- **The command log.** Every command issued to the immediate context or the swap chain is
  appended to a ghost log, `Direct3DBase.commands`. `Context.Replay` gives that log a meaning:
  which targets, viewport, buffers, topology, input layout, shaders, rasterizer state and
  constants each `DrawIndexed` sees. A draw's constants are the data last uploaded to the
  constant buffer bound to the vertex shader. Two effects outside the context calls are part
  of that meaning:
  - A present unbinds the targets. The swap chain is flip-sequential (`Direct3DBase.cpp:138`),
    and presenting it unbinds its back buffer. That is why every loaded frame binds the
    targets again.
  - Creating a device replaces the context with one in its default state. The log marks this
    with `NewImmediateContext`.

  The viewport is set only by the size-dependent set-up, never by a frame. So a frame's draws
  use the viewport the last rebuild on the current context installed, and none if no rebuild
  has run on it.
- **Virtual dispatch.** `CubeRenderer` is sealed and is the only class derived from
  `Direct3DBase`. So `CubeRenderer` holds its `Direct3DBase` part as `base`, and the base
  methods that call virtual members are written in `CubeRenderer`, calling the overrides:
  - `Initialize`
  - `UpdateForWindowSizeChange`
  - `HandleDeviceLost`
  - `Present`

  Their rows below cite `Direct3DBase.cpp`.
- **The orientation transforms** are exact integer matrices, since every entry is 0 or ±1. They
  are proved to be the Z rotations their case comments name.
- **The other matrices** (perspective, look-at, rotation about Y) are kept as symbolic
  DirectXMath terms (`Scene.MatrixTerm`). The model then records which field of the constant
  buffer each step writes, and with which expression.
- **The loading chain.** The asynchronous tasks are four step methods on the renderer:
  - vertex shader;
  - pixel shader;
  - geometry, which runs after both shader tasks;
  - completion, which runs after geometry.

  Each task's state is `NotStarted`, `Pending`, `Done` or `Faulted`. The order between tasks
  is enforced by preconditions, and `Valid()` (`ChainOrdered`) keeps what that order
  guarantees.

Device loss does not re-arm the loading gate. `m_loadingComplete` starts false (line 10 of
`CubeRenderer.cpp`) and is set to true only at line 146; `HandleDeviceLost` does not touch it. So `HandleDeviceLost`
keeps `loadingComplete` unchanged, and `Scenarios.DeviceLostAfterLoading` shows the
consequence: once the surface is rebuilt, a frame rendered before the restarted chain finishes
draws with the vertex buffer of the removed device.

## Model

| member | source | states |
|---|---|---|
| Matrices.RotationZ | MultiPolygonSample/Direct3DBase.cpp:184-219 | the XMMatrixRotationZ layout for a whole number of quarter turns has only 0 and ±1 entries |
| Matrices.RotationCompose | MultiPolygonSample/Direct3DBase.cpp:184-219 | turning by a then by b is turning by a + b, modulo a full turn |
| Matrices.RotationInverse | MultiPolygonSample/Direct3DBase.cpp:184-219 | opposite quarter-turn rotations multiply to the identity, in either order |
| Display.OrientationSetup | MultiPolygonSample/Direct3DBase.cpp:179-224 | the switch is defined exactly on Landscape, Portrait, LandscapeFlipped and PortraitFlipped and fails (default branch) on every other value; each case picks a specified rotation, a 90/270 rotation exactly for the portrait cases, and a transform with 0/±1 entries |
| Display.OrientationTransformAngles | MultiPolygonSample/Direct3DBase.cpp:184-219 | the four transforms are the Z rotations by 0, 90, 180 and 270 degrees their case comments name |
| Display.TransformUndoesRotation | MultiPolygonSample/Direct3DBase.cpp:179-224 | in every case the transform is the Z rotation opposite to the swap-chain rotation the case sets |
| Display.RotationCancelsTransform | MultiPolygonSample/Direct3DBase.cpp:179-228 | pre-rotating by the transform and then letting the compositor apply the swap-chain rotation gives the identity |
| Display.PortraitTwiceIsLandscapeFlipped | MultiPolygonSample/Direct3DBase.cpp:192-210 | the Portrait (90 degree) matrix times itself is the LandscapeFlipped (180 degree) matrix |
| Display.PortraitTransformsInverse | MultiPolygonSample/Direct3DBase.cpp:192-219 | the Portrait and PortraitFlipped matrices are mutual inverses |
| Display.ConvertDipsToPixels | MultiPolygonSample/Direct3DBase.cpp:340-344 | the result is the integer nearest to dips * dpi / 96, halves rounded up |
| Display.ConvertAtDefaultDpi | MultiPolygonSample/Direct3DBase.cpp:340-344 | at 96 DPI every whole number of DIPs converts to itself |
| Display.ConvertMonotone | MultiPolygonSample/Direct3DBase.cpp:340-344 | for a non-negative DPI, more DIPs never give fewer pixels |
| Display.RenderTargetSize | MultiPolygonSample/Direct3DBase.cpp:105-110 | (width, height) in pixels for the landscape orientations, (height, width) for the portrait ones |
| Display.RenderTargetFillsWindow | MultiPolygonSample/Direct3DBase.cpp:105-228 | a render target sized for a supported orientation and turned by that orientation's rotation covers exactly the window's pixel extent |
| Scene.SceneIndicesInBounds | MultiPolygonSample/CubeRenderer.cpp:71-117 | the shared index list has three 16-bit entries, each naming a vertex of the first and of the second three-vertex buffer |
| Scene.RasterizerStatesDifferInCullOnly | MultiPolygonSample/CubeRenderer.cpp:132-142 | both rasterizer states are solid fill with counter-clockwise front faces; the first culls front faces, the second back faces, and nothing else differs |
| Context.ReplayAppend | MultiPolygonSample/CubeRenderer.cpp:190-291 | replaying two runs of commands is replaying the first, then the second |
| Context.ReplayIgnored | MultiPolygonSample/CubeRenderer.cpp:192-203 | clears, flushes and discards change nothing a draw sees |
| Context.ReplayPresentUnbinds | MultiPolygonSample/Direct3DBase.cpp:317-325 | a present of the flip-sequential swap chain and the two discards unbind the render target and the depth-stencil view, and change nothing else |
| Context.ReplayNewContext | MultiPolygonSample/Direct3DBase.cpp:86-88 | once the context pointer is a new device's context, nothing is bound, no viewport is set and no buffer holds data; only the draws and uploads already made remain |
| Context.ReplaySetsViewport | MultiPolygonSample/Direct3DBase.cpp:277-284 | after RSSetViewports the viewport in force is the one set, whatever the history before it, and nothing else changes |
| Context.ReplayKeepsDraws | MultiPolygonSample/CubeRenderer.cpp:190-291 | commands only ever add draws and uploads; earlier draws are never lost |
| Frame.ReplayBindBuffers | MultiPolygonSample/CubeRenderer.cpp:238-254 | the input-assembler calls bind the object's vertex buffer, the shared index buffer and the triangle-list topology, and change nothing else |
| Frame.ReplayBindShaders | MultiPolygonSample/CubeRenderer.cpp:256-274 | the layout and shader calls bind the input layout, the vertex shader, its constant buffer and the pixel shader, and change nothing else |
| Frame.ReplayBindObject | MultiPolygonSample/CubeRenderer.cpp:238-274 | RenderObject's bindings set the vertex buffer, the index buffer, the triangle-list topology, the input layout, both shaders and the vertex shader's constant buffer, and nothing else a draw sees |
| Frame.ReplayPass | MultiPolygonSample/CubeRenderer.cpp:276-290 | a pass sets the rasterizer state, then draws once with that state, the bound buffers, layout and shaders, and the contents of the bound constant buffer |
| Frame.ReplayObject | MultiPolygonSample/CubeRenderer.cpp:235-291 | RenderObject draws exactly twice with its vertex buffer: all indices under the front-cull state, then all under the back-cull state |
| Frame.FrameStartsWithClears | MultiPolygonSample/CubeRenderer.cpp:192-203 | every frame, loaded or not, starts with the midnight-blue colour clear and the 1.0 depth clear |
| Frame.LoadingFrameLeavesPipeline | MultiPolygonSample/CubeRenderer.cpp:206-209 | while loading, a frame binds no target, uploads nothing and draws nothing |
| Frame.ReplayFrameStart | MultiPolygonSample/CubeRenderer.cpp:192-224 | the clears change nothing; then the targets are bound and the frame's constants are written into the constant buffer, with one upload counted |
| Frame.LoadedFrameDraws | MultiPolygonSample/CubeRenderer.cpp:211-229 | a loaded frame uploads the constants exactly once and draws exactly four times: first object front-cull, first object back-cull, second object front-cull, second object back-cull, each with the frame's targets, the viewport in force before the frame, the shared index buffer, triangle list, layout and shaders, and the constants just uploaded to the bound constant buffer |
| Frame.ReplayFrameAfter | MultiPolygonSample/CubeRenderer.cpp:190-230 | appended to any history, a loading frame leaves the replayed context as it was and a loaded frame adds one upload and the four draws above, which use the viewport the history left in force |
| Direct3DBase.FirstFailure | MultiPolygonSample/Direct3DBase.cpp:66-88 | no call is reported exactly when every call succeeds; a reported call is in the list and fails |
| Direct3DBase.FirstFailureIsFirst | MultiPolygonSample/Direct3DBase.cpp:66-88 | the reported call fails and every call before it succeeds, so its ThrowIfFailed is the one that throws |
| Direct3DBase.FirstFailureSkips | MultiPolygonSample/Direct3DBase.cpp:66-88 | when the first k calls succeed, the first failure is found in the rest of the list |
| Direct3DBase.FirstFailureAppend | MultiPolygonSample/Direct3DBase.cpp:112-274 | the first failure of two runs of calls is the first run's, or failing that the second's |
| Direct3DBase.CallsStatus | MultiPolygonSample/Direct3DBase.cpp:66-88 | a run of checked calls returns normally exactly when every call succeeds, and otherwise throws the failure of a failing call of the run |
| Direct3DBase.CallsStatusAppend | MultiPolygonSample/Direct3DBase.cpp:226-274 | two runs of checked calls throw what the first throws, or else what the second throws |
| Direct3DBase.ThrowsAt | MultiPolygonSample/Direct3DBase.cpp:66-88 | the k-th call, failing after the ones before it succeeded, is the one whose failure is thrown |
| Direct3DBase.SizeDependentStatus | MultiPolygonSample/Direct3DBase.cpp:112-274 | the size-dependent rebuild succeeds exactly when its swap-chain calls succeed, the orientation is one of the four cases, and the view calls succeed; a failure is the unsupported orientation or a failing call of one of those runs |
| Direct3DBase.Direct3DBase.constructor | MultiPolygonSample/Direct3DBase.cpp:11-13 | a new object has no device, context, swap chain or views, zero sizes and an empty command log |
| Direct3DBase.Direct3DBase.CreateDeviceResources | MultiPolygonSample/Direct3DBase.cpp:37-89 | creates a new device, then takes its 11.1 device and context interfaces; the status is the first failing call's; a failed query leaves that pointer null; the surface is untouched, and the log gains only the new-context mark, and only on success |
| Direct3DBase.Direct3DBase.CreateWindowSizeDependentResources | MultiPolygonSample/Direct3DBase.cpp:92-285 | saves the window's bounds and orientation and sizes the render target from them; the status is SizeDependentStatus; on success the surface is ready, a resized swap chain keeps its device and a created one belongs to the current device, both views belong to the current device, and one viewport command is logged |
| Direct3DBase.Direct3DBase.PrepareSwapChain | MultiPolygonSample/Direct3DBase.cpp:112-175 | resizes an existing swap chain to two buffers of the render-target size keeping its rotation, or creates one of that size on the current device; the status is the first failing call's |
| Direct3DBase.Direct3DBase.CreateOrientedTargets | MultiPolygonSample/Direct3DBase.cpp:179-285 | an unsupported orientation throws before any call; otherwise it sets the case's rotation and transform, the back-buffer view of the swap-chain size, the depth-stencil view and a (0,0) viewport of the render-target size, and logs the viewport |
| Direct3DBase.Direct3DBase.ViewBackBuffer | MultiPolygonSample/Direct3DBase.cpp:226-246 | sets the swap-chain rotation, then views the back buffer at the swap-chain size; a failed view creation leaves the view null |
| Direct3DBase.Direct3DBase.CreateDepthStencil | MultiPolygonSample/Direct3DBase.cpp:249-274 | creates the depth-stencil view at the render-target size; a failed view creation leaves it null |
| Direct3DBase.Direct3DBase.ReleaseSizeDependentViews | MultiPolygonSample/Direct3DBase.cpp:294-298 | unbinds the targets, nulls both views and flushes, changing nothing else |
| Direct3DBase.Direct3DBase.ResetForDeviceLost | MultiPolygonSample/Direct3DBase.cpp:28-30 | zeroes the saved width and height and nulls the swap chain, changing nothing else |
| Direct3DBase.Direct3DBase.PresentFrame | MultiPolygonSample/Direct3DBase.cpp:317-325 | with a swap chain, logs Present(1) and then a discard of each view; with none, the call goes through a null pointer and nothing is logged |
| CubeRenderer.CubeRenderer.constructor | MultiPolygonSample/CubeRenderer.cpp:9-13 | not loaded, index count 0, no objects, zeroed constants, no task started |
| CubeRenderer.CubeRenderer.CreateDeviceResources | MultiPolygonSample/CubeRenderer.cpp:15-20 | the base creates the device; only if it succeeds does the loading chain start, with every task pending; objects, flag, constants and surface are untouched, and the log gains the new-context mark only on success |
| CubeRenderer.CubeRenderer.RunVertexShaderTask | MultiPolygonSample/CubeRenderer.cpp:22-47 | the task is done exactly when the read, the shader creation and the layout creation all succeed; a failed creation leaves its pointer null; no other object changes |
| CubeRenderer.CubeRenderer.RunPixelShaderTask | MultiPolygonSample/CubeRenderer.cpp:49-67 | the task is done exactly when the read, the shader creation and the constant-buffer creation all succeed; a failed creation leaves its pointer null; no other object changes |
| CubeRenderer.CubeRenderer.RunGeometryTask | MultiPolygonSample/CubeRenderer.cpp:70-143 | runs only after both shader tasks and is done exactly when both succeeded and the three buffers were created; then it holds both vertex buffers, the index buffer, index count 3 and the two rasterizer states, whose unchecked creation may leave them null |
| CubeRenderer.CubeRenderer.CreateGeometryBuffers | MultiPolygonSample/CubeRenderer.cpp:71-130 | the first vertex buffer, the second, the index count, then the index buffer, stopping at the first failed creation, whose pointer is left null; the status is that failure's |
| CubeRenderer.CubeRenderer.RunCompletionTask | MultiPolygonSample/CubeRenderer.cpp:145-147 | sets loadingComplete exactly when geometry succeeded, and then all three earlier tasks are done and the index count is 3 |
| CubeRenderer.CubeRenderer.CreateWindowSizeDependentResources | MultiPolygonSample/CubeRenderer.cpp:150-176 | after the base rebuild succeeds, only the projection changes: a 70-degree perspective over the saved DIP width and height, post-multiplied by the orientation transform; on failure the constants are untouched |
| CubeRenderer.CubeRenderer.Update | MultiPolygonSample/CubeRenderer.cpp:178-188 | writes the transposed look-at view and the transposed Y rotation by timeTotal * pi/4 as model, and keeps the projection |
| CubeRenderer.CubeRenderer.RenderObject | MultiPolygonSample/CubeRenderer.cpp:235-291 | logs the bindings for one vertex buffer, then a front-cull pass and a back-cull pass of DrawIndexed(indexCount) |
| CubeRenderer.CubeRenderer.Render | MultiPolygonSample/CubeRenderer.cpp:190-230 | logs exactly FrameCommands for the current flag, views, constants and objects (whose replay Frame.ReplayFrameAfter gives), leaving the surface and device alone |
| CubeRenderer.CubeRenderer.Initialize | MultiPolygonSample/Direct3DBase.cpp:16-22 | a failed device creation is thrown before any size work: the surface, the log, the rebuild count and the tasks are as they were; otherwise exactly one rebuild runs and the status is its; on success the surface is ready for the window, the device and context are the new device's, the chain is pending, the log gains only the new-context mark and the viewport, and the constant buffer gets the window's projection with its model and view kept; on failure the constant buffer is kept |
| CubeRenderer.CubeRenderer.UpdateForWindowSizeChange | MultiPolygonSample/Direct3DBase.cpp:288-301 | afterwards the saved size and orientation match the window; when they already did, nothing at all changes; otherwise the views are released and exactly one rebuild runs: on success the log gains exactly the unbind, the flush and the new viewport, and only the projection of the constant buffer is recomputed, from the window and its orientation; on failure the log gains only the unbind and flush and the constant buffer is kept |
| CubeRenderer.CubeRenderer.HandleDeviceLost | MultiPolygonSample/Direct3DBase.cpp:25-34 | a failed device creation is thrown with the swap chain null, the saved size zeroed, and the log and tasks unchanged; otherwise a new device is created with the chain restarted, and with a 0x0 window and unchanged orientation nothing is rebuilt, the log gains only the new-context mark, and the surface is the old one with the saved size zeroed and no swap chain; otherwise the rebuild takes the create path, and the log gains exactly the new-context mark, the unbind, the flush and (on success) the new viewport; only a rebuild that succeeds recomputes the projection (the rest of the constant buffer kept), every other path keeps the constant buffer; loadingComplete and the objects are untouched |
| CubeRenderer.CubeRenderer.Present | MultiPolygonSample/Direct3DBase.cpp:304-337 | the present and both discards are logged first; device-removed never throws the present failure and recreates the device; another failing result throws it; success returns; a null swap chain is reported and logs nothing; except on device-removed, the log gains exactly the present and discards and the surface, device, context, rebuild count, tasks and constants are unchanged; the objects are unchanged on every path |
| Scenarios.StartUp | MultiPolygonSample/CubeRenderer.cpp:15-147 | with no failing call, initialization and the full loading chain leave the surface ready, loading complete, index count 3 and nothing bound, uploaded or drawn: the only command reaching the pipeline is the viewport |
| Scenarios.InitializeCleanly | MultiPolygonSample/Direct3DBase.cpp:16-22 | with no failing call, construction and initialization leave the surface ready, the chain pending and a log whose replay sets only the viewport |
| Scenarios.StartUpAndRender | MultiPolygonSample/CubeRenderer.cpp:190-291 | the first loaded frame after a clean start-up draws four times, each of all three indices into the current render target, as a triangle list through the loaded layout and shaders, with the renderer's constants and the viewport the start-up installed |
| Scenarios.RunLoadingChain | MultiPolygonSample/CubeRenderer.cpp:22-147 | with no failing call the four tasks all finish done, with every object (shaders, layout, constant buffer, vertex and index buffers) created, both rasterizer states set and loading complete |
| Scenarios.SizeChangedTwice | MultiPolygonSample/Direct3DBase.cpp:288-301 | two size-changed events for the same window rebuild at most once |
| Scenarios.ResizeThenRender | MultiPolygonSample/Direct3DBase.cpp:277-301 | after a size change that succeeds, the viewport covers the new render target and the next loaded frame's four draws use it |
| Scenarios.DeviceLostWithEmptyWindow | MultiPolygonSample/Direct3DBase.cpp:25-34 | device loss with a 0x0 window and unchanged orientation rebuilds nothing, so the next Present goes through a null swap chain |
| Scenarios.DeviceLostAfterLoading | MultiPolygonSample/Direct3DBase.cpp:25-34 | after device loss loadingComplete stays set, so when the surface is rebuilt the next frame draws with a vertex buffer of the removed device; its draws use the rebuild's viewport, or none when nothing was rebuilt |
| Scenarios.RecoveredViewport | MultiPolygonSample/Direct3DBase.cpp:25-34 | after device-loss recovery the viewport in force is the rebuild's, or none when no rebuild ran, because the new context starts without one |

## Left out

- The D3D11 and DXGI calls themselves are foreign calls. A `Gpu` parameter says which of them fail, and the created objects are handles tagged with the number of the device that made them.
- The HRESULT that `Present1` returns is a parameter of `Present`. So are the window's bounds, DPI and current orientation; they stand for `CoreWindow::Bounds`, `DisplayProperties::LogicalDpi` and `DisplayProperties::CurrentOrientation`.
- DirectXMath's floating-point matrices (perspective, look-at, rotation about Y, multiply, transpose) are symbolic terms, not numbers. The projection's aspect ratio is kept as the pair of window width and height, so a zero height is not evaluated.
- The orientation transforms are exact integers; the source stores them as floats. The DIP conversion is modelled over exact reals, so float rounding is not modelled.
- The casts of the render-target size to `UINT` are not modelled; the size is the whole-number result of `ConvertDipsToPixels`.
- The loading chain's concurrency is not modelled. `ReadDataAsync` and the `.then` continuations run as four sequential steps, in an order the preconditions allow. An unobserved task exception is modelled as a `Faulted` task. The geometry task runs only once both shader tasks have settled. PPL's `&&` of two tasks (`when_all`) can fault as soon as one input throws, while the other shader task is still pending. That interleaving is not modelled. A shader file's contents are not modelled, only whether reading it fails.
- Tasks of a chain abandoned by device loss are not modelled. When `HandleDeviceLost` restarts the chain, tasks still running from the old chain are dropped.
- The two raw rasterizer-state pointers are not modelled as raw pointers. The constructor leaves them uninitialised and their creation is not checked; the model treats uninitialised as null, and a failed creation leaves them null. The reference leak on re-creation is not modelled.
- Formats, bind flags, multisample settings, the feature-level list, `m_featureLevel` and the debug-layer flag are not modelled; none of them is ever read back by the core.
- `Direct3DApp1.cpp` (the window events and the frame loop that call these methods) and `CubeRenderer.h` (declarations only) are not part of this model except as field names and layout.
- Presenting through a null swap chain is undefined behaviour in the source. It is reported as `NullSwapChain`, with nothing logged.
- A present unbinds the targets in the replay whatever `Present1` returns. Whether a failed present unbinds them is not modelled. After device removal the context is replaced anyway.
- CubeRenderer.CubeRenderer.Present: on a device-removed result the contract states that no present failure is thrown, a new device is created (when creation succeeds) and the objects are kept. The rest of what `HandleDeviceLost` does there (its log, tasks and constants) is stated by that method's own contract, not repeated here.
- CubeRenderer.CubeRenderer.RunGeometryTask: when a buffer creation fails, which buffers changed is stated by `CreateGeometryBuffers`, not repeated here.
- CubeRenderer.CubeRenderer.Render: the context replay of the frame is stated by `Frame.ReplayFrameAfter`, over the command sequence `Render` is proved to log.

=== FILE: context.dfy ===
/**
 * The Direct3D objects the renderer holds, the commands it issues to the immediate context
 * and the swap chain, and a small replay semantics of those commands: which targets,
 * buffers, rasterizer state and constants each draw call sees.
 */
module Context {
  import opened Platform
  import opened Scene
  import Display

  /** The device-created objects the renderer keeps a pointer to. */
  datatype Resource =
    | VertexShader | PixelShader | InputLayout | ConstantBuffer
    | VertexBuffer | VertexBuffer2 | IndexBuffer

  /** A created object, tagged with the device that created it (devices are numbered 1, 2, ...). */
  datatype Handle = Handle(resource: Resource, device: nat)

  datatype ViewKind = RenderTargetView | DepthStencilView

  /** A render-target view of the back buffer or a depth-stencil view, with the texture's size. */
  datatype View = View(kind: ViewKind, width: int, height: int, device: nat)

  /** The swap chain's description as the renderer last set it. */
  datatype SwapChain = SwapChain(width: int, height: int, bufferCount: nat, rotation: Display.Rotation, device: nat)

  /** CD3D11_VIEWPORT(x, y, width, height). */
  datatype Viewport = Viewport(x: int, y: int, width: int, height: int)

  /**
   * A call on the immediate context, or on the swap chain.  NewImmediateContext is not a
   * call: it marks the point where the renderer's context pointer is replaced by the
   * immediate context of a newly created device, whose state is the default one.
   */
  datatype Command =
    | ClearRenderTargetView(view: Option<View>, color: Color)
    | ClearDepthStencilView(view: Option<View>, depth: real)
    | OMSetRenderTargets(renderTarget: Option<View>, depthStencil: Option<View>)
    | UpdateSubresource(buffer: Option<Handle>, data: ConstantBufferData)
    | IASetVertexBuffers(vertexBuffer: Option<Handle>, stride: nat, offset: nat)
    | IASetIndexBuffer(indexBuffer: Option<Handle>)
    | IASetTriangleList
    | IASetInputLayout(layout: Option<Handle>)
    | VSSetShader(vertexShader: Option<Handle>)
    | VSSetConstantBuffers(constantBuffer: Option<Handle>)
    | PSSetShader(pixelShader: Option<Handle>)
    | RSSetState(state: Option<RasterizerDesc>)
    | DrawIndexed(indexCount: nat, startIndex: nat, baseVertex: int)
    | RSSetViewports(viewport: Viewport)
    | Flush
    | DiscardView(discarded: Option<View>)
    | Present(syncInterval: nat)
    | NewImmediateContext

  /** The primitive topology bound to the input assembler. */
  datatype Topology = UndefinedTopology | TriangleList

  /** What one DrawIndexed call draws with. */
  datatype Draw = Draw(
    renderTarget: Option<View>, depthStencil: Option<View>, viewport: Option<Viewport>,
    vertexBuffer: Option<Handle>, indexBuffer: Option<Handle>, topology: Topology,
    inputLayout: Option<Handle>, vertexShader: Option<Handle>, pixelShader: Option<Handle>,
    rasterizer: Option<RasterizerDesc>, constants: Option<ConstantBufferData>,
    indexCount: nat)

  /**
   * The part of the context state a draw depends on, the data last uploaded to each
   * buffer, the number of UpdateSubresource calls, and the draws issued so far.
   */
  datatype Pipeline = Pipeline(
    renderTarget: Option<View>, depthStencil: Option<View>, viewport: Option<Viewport>,
    vertexBuffer: Option<Handle>, indexBuffer: Option<Handle>, topology: Topology,
    inputLayout: Option<Handle>, vertexShader: Option<Handle>, vsConstantBuffer: Option<Handle>,
    pixelShader: Option<Handle>, rasterizer: Option<RasterizerDesc>,
    contents: map<Handle, ConstantBufferData>, uploads: nat, draws: seq<Draw>)

  /** The state of a context nothing has been issued to. */
  const FreshPipeline: Pipeline :=
    Pipeline(None, None, None, None, None, UndefinedTopology, None, None, None, None, None, map[], 0, [])

  /** The constants the vertex shader reads: the data last uploaded to the bound constant buffer, if any. */
  function BoundConstants(p: Pipeline): Option<ConstantBufferData> {
    if p.vsConstantBuffer.Some? && p.vsConstantBuffer.value in p.contents
    then Some(p.contents[p.vsConstantBuffer.value]) else None
  }

  /** The effect of one command on the pipeline; the commands not listed leave it as it is. */
  function Step(p: Pipeline, c: Command): Pipeline {
    match c
    case OMSetRenderTargets(rt, ds) => p.(renderTarget := rt, depthStencil := ds)
    case RSSetViewports(v) => p.(viewport := Some(v))
    // A flip-model swap chain (DXGI_SWAP_EFFECT_FLIP_SEQUENTIAL) unbinds its back buffer when
    // it presents, so the targets are unbound; the depth view goes with them.
    case Present(_) => p.(renderTarget := None, depthStencil := None)
    // A new device's context starts with nothing bound and no viewport; the history of
    // draws and uploads is the log's, not the context's, and is kept.
    case NewImmediateContext => FreshPipeline.(uploads := p.uploads, draws := p.draws)
    // The renderer uploads only through its constant buffer, and only once loading is
    // complete, when the pixel-shader task has created it; a null destination writes nothing.
    case UpdateSubresource(buffer, data) =>
      p.(contents := if buffer.Some? then p.contents[buffer.value := data] else p.contents,
         uploads := p.uploads + 1)
    case IASetVertexBuffers(vb, _, _) => p.(vertexBuffer := vb)
    case IASetIndexBuffer(ib) => p.(indexBuffer := ib)
    case IASetTriangleList => p.(topology := TriangleList)
    case IASetInputLayout(layout) => p.(inputLayout := layout)
    case VSSetShader(vs) => p.(vertexShader := vs)
    case VSSetConstantBuffers(cb) => p.(vsConstantBuffer := cb)
    case PSSetShader(ps) => p.(pixelShader := ps)
    case RSSetState(s) => p.(rasterizer := s)
    case DrawIndexed(n, _, _) =>
      p.(draws := p.draws + [Draw(p.renderTarget, p.depthStencil, p.viewport, p.vertexBuffer, p.indexBuffer, p.topology,
                                  p.inputLayout, p.vertexShader, p.pixelShader, p.rasterizer,
                                  BoundConstants(p), n)])
    case _ => p
  }

  /** The pipeline after the commands cs, in order, starting from p. */
  function Replay(p: Pipeline, cs: seq<Command>): Pipeline
    decreases |cs|
  {
    if cs == [] then p else Replay(Step(p, cs[0]), cs[1..])
  }

  /** Replaying a + b is replaying a, then b. */
  lemma {:induction false} ReplayAppend(p: Pipeline, a: seq<Command>, b: seq<Command>)
    ensures Replay(p, a + b) == Replay(Replay(p, a), b)
    decreases |a|
  {
    if a == [] {
      assert a + b == b;
    } else {
      assert (a + b)[1..] == a[1..] + b;
      ReplayAppend(Step(p, a[0]), a[1..], b);
    }
  }

  /** The commands Step ignores: clears, flushes, discards. */
  predicate Ignored(c: Command) {
    c.ClearRenderTargetView? || c.ClearDepthStencilView? || c.Flush?
    || c.DiscardView?
  }

  /** A run of ignored commands leaves the pipeline as it was. */
  lemma {:induction false} ReplayIgnored(p: Pipeline, cs: seq<Command>)
    requires forall i :: 0 <= i < |cs| ==> Ignored(cs[i])
    ensures Replay(p, cs) == p
    decreases |cs|
  {
    if cs != [] {
      assert Step(p, cs[0]) == p;
      ReplayIgnored(p, cs[1..]);
    }
  }

  /** After RSSetViewports(v), the viewport in force is v, whatever came before. */
  lemma ReplaySetsViewport(p: Pipeline, cs: seq<Command>, v: Viewport)
    ensures Replay(p, cs + [RSSetViewports(v)]) == Replay(p, cs).(viewport := Some(v))
  {
    ReplayAppend(p, cs, [RSSetViewports(v)]);
    var q := Replay(p, cs);
    assert Replay(q, [RSSetViewports(v)]) == Replay(Step(q, RSSetViewports(v)), []);
  }

  /** A present, then the two discards, unbind the targets and change nothing else. */
  lemma ReplayPresentUnbinds(p: Pipeline, interval: nat, rtv: Option<View>, dsv: Option<View>)
    ensures Replay(p, [Present(interval), DiscardView(rtv), DiscardView(dsv)])
         == p.(renderTarget := None, depthStencil := None)
  {
    var cs := [Present(interval), DiscardView(rtv), DiscardView(dsv)];
    var q := p.(renderTarget := None, depthStencil := None);
    assert Replay(p, cs) == Replay(q, cs[1..]);
    ReplayIgnored(q, cs[1..]);
  }

  /** After a new immediate context, only the draws and uploads of the history remain. */
  lemma ReplayNewContext(p: Pipeline, cs: seq<Command>)
    ensures var q := Replay(p, cs);
      Replay(p, cs + [NewImmediateContext]) == FreshPipeline.(uploads := q.uploads, draws := q.draws)
  {
    ReplayAppend(p, cs, [NewImmediateContext]);
    var q := Replay(p, cs);
    assert Replay(q, [NewImmediateContext]) == Replay(Step(q, NewImmediateContext), []);
  }

  /** Draws are only ever appended. */
  lemma {:induction false} ReplayKeepsDraws(p: Pipeline, cs: seq<Command>)
    ensures p.draws <= Replay(p, cs).draws
    ensures p.uploads <= Replay(p, cs).uploads
    decreases |cs|
  {
    if cs != [] {
      ReplayKeepsDraws(Step(p, cs[0]), cs[1..]);
    }
  }
}

=== FILE: cube_renderer.dfy ===
/**
 * CubeRenderer: the only class derived from Direct3DBase.  It owns the shaders, the two
 * vertex buffers, the shared index buffer, the two rasterizer states and the constant
 * buffer, loads them through a chain of tasks ending in m_loadingComplete, and renders two
 * objects per frame.  The Direct3DBase members that make virtual calls (Initialize,
 * HandleDeviceLost, UpdateForWindowSizeChange, Present) are modelled here, where those
 * calls reach the CubeRenderer overrides.
 */
module CubeRenderer {
  import opened Platform
  import opened Scene
  import opened Context
  import opened Frame
  import Display
  import D = Direct3DBase

  /** The state of one task of the loading chain. */
  datatype TaskState = NotStarted | Pending | Done | Faulted

  /** A task has run, successfully or not. */
  predicate Settled(t: TaskState) {
    t == Done || t == Faulted
  }

  /** The checked calls of the vertex-shader task: read the file, create the shader and the input layout. */
  const VertexShaderCalls: seq<Api> := [ReadVertexShaderFile, CreateVertexShader, CreateInputLayout]

  /** The checked calls of the pixel-shader task: read the file, create the shader and the constant buffer. */
  const PixelShaderCalls: seq<Api> := [ReadPixelShaderFile, CreatePixelShader, CreateConstantBuffer]

  /** The checked calls of the geometry task; the two rasterizer-state creations are not checked. */
  const GeometryCalls: seq<Api> := [CreateVertexBuffer, CreateVertexBuffer2, CreateIndexBuffer]

  /** The renderer's device objects and index count, as one value. */
  datatype Objects = Objects(
    inputLayout: Option<Handle>, vertexBuffer: Option<Handle>, vertexBuffer2: Option<Handle>,
    indexBuffer: Option<Handle>, vertexShader: Option<Handle>, pixelShader: Option<Handle>,
    constantBuffer: Option<Handle>, rasterizerState: Option<RasterizerDesc>,
    rasterizerStateBack: Option<RasterizerDesc>, indexCount: nat)

  /** The progress of the loading chain, as one value. */
  datatype Tasks = Tasks(vertexShader: TaskState, pixelShader: TaskState, geometry: TaskState, completion: TaskState)

  /**
   * The loading chain runs in order: geometry only after both shader tasks have run,
   * completion only after geometry; the index count is 0 until the geometry task sets it to
   * the length of the index list, and m_loadingComplete implies it has been set.
   */
  predicate ChainOrdered(t: Tasks, indexCount: nat, loadingComplete: bool) {
    && (indexCount == 0 || indexCount == |TriangleIndices|)
    && (loadingComplete ==> indexCount == |TriangleIndices|)
    && (Settled(t.geometry) ==> Settled(t.vertexShader) && Settled(t.pixelShader))
    && (t.geometry == Done ==> t.vertexShader == Done && t.pixelShader == Done && indexCount == |TriangleIndices|)
    && (Settled(t.completion) ==> Settled(t.geometry))
    && (t.completion == Done ==> t.geometry == Done && loadingComplete)
  }

  class CubeRenderer {
    /** The Direct3DBase part of the object. */
    const base: D.Direct3DBase

    var loadingComplete: bool
    var inputLayout: Option<Handle>
    var vertexBuffer: Option<Handle>
    var vertexBuffer2: Option<Handle>
    var indexBuffer: Option<Handle>
    var vertexShader: Option<Handle>
    var pixelShader: Option<Handle>
    var constantBuffer: Option<Handle>
    /** The front-cull and back-cull states; None for a null pointer. */
    var rasterizerState: Option<RasterizerDesc>
    var rasterizerStateBack: Option<RasterizerDesc>
    var indexCount: nat
    var constantBufferData: ConstantBufferData

    /** The tasks of the loading chain started by the last CreateDeviceResources. */
    var vertexShaderTask: TaskState
    var pixelShaderTask: TaskState
    var geometryTask: TaskState
    var completionTask: TaskState

    function ObjectState(): Objects
      reads this
    {
      Objects(inputLayout, vertexBuffer, vertexBuffer2, indexBuffer, vertexShader, pixelShader, constantBuffer,
              rasterizerState, rasterizerStateBack, indexCount)
    }

    function TaskStates(): Tasks
      reads this
    {
      Tasks(vertexShaderTask, pixelShaderTask, geometryTask, completionTask)
    }

    /** What RenderObject binds besides the vertex buffer. */
    function CurrentBindings(): Bindings
      reads this
    {
      Bindings(indexBuffer, inputLayout, vertexShader, constantBuffer, pixelShader,
               rasterizerState, rasterizerStateBack, indexCount)
    }

    /** The loading-chain invariant holds of the current tasks, index count and flag. */
    predicate Valid()
      reads this
    {
      ChainOrdered(TaskStates(), indexCount, loadingComplete)
    }

    /** CubeRenderer(): not loaded, no indices, no objects, zero constants, no task started. */
    constructor()
      ensures Valid() && fresh(base)
      ensures !loadingComplete && indexCount == 0
      ensures ObjectState() == Objects(None, None, None, None, None, None, None, None, None, 0)
      ensures constantBufferData == InitialConstants
      ensures TaskStates() == Tasks(NotStarted, NotStarted, NotStarted, NotStarted)
      ensures base.swapChain.None? && base.device.None? && base.context.None? && base.devicesCreated == 0
      ensures base.commands == [] && base.sizeRebuilds == 0
    {
      base := new D.Direct3DBase();
      loadingComplete := false;
      indexCount := 0;
      inputLayout, vertexBuffer, vertexBuffer2, indexBuffer := None, None, None, None;
      vertexShader, pixelShader, constantBuffer := None, None, None;
      rasterizerState, rasterizerStateBack := None, None;
      constantBufferData := InitialConstants;
      vertexShaderTask, pixelShaderTask, geometryTask, completionTask := NotStarted, NotStarted, NotStarted, NotStarted;
    }

    /**
     * CubeRenderer::CreateDeviceResources: the base creates the device; if that succeeds the
     * loading chain is started (its tasks run later, one step each).
     */
    method CreateDeviceResources(gpu: Gpu) returns (status: Status)
      requires Valid()
      modifies this, base
      ensures Valid()
      ensures status == D.CallsStatus(gpu, D.DeviceCalls)
      ensures status.Ok? ==> base.device == Some(base.devicesCreated) && base.context == Some(base.devicesCreated)
      ensures status.Ok? ==> base.devicesCreated == old(base.devicesCreated) + 1
      ensures status.Ok? ==> TaskStates() == Tasks(Pending, Pending, Pending, Pending)
      ensures status.Thrown? ==> TaskStates() == old(TaskStates())
      ensures base.SurfaceState() == old(base.SurfaceState())
      ensures base.commands == old(base.commands) + (if status.Ok? then [NewImmediateContext] else [])
      ensures base.sizeRebuilds == old(base.sizeRebuilds)
      ensures loadingComplete == old(loadingComplete) && ObjectState() == old(ObjectState())
      ensures constantBufferData == old(constantBufferData)
    {
      status := base.CreateDeviceResources(gpu);
      if status.Thrown? {
        return;
      }
      vertexShaderTask, pixelShaderTask, geometryTask, completionTask := Pending, Pending, Pending, Pending;
    }

    /**
     * The vertex-shader task: read the compiled shader, create the vertex shader, then the
     * input layout.  A failed read faults the task before it runs; a failed creation leaves
     * that pointer null and faults the task.
     */
    method RunVertexShaderTask(gpu: Gpu)
      requires Valid() && vertexShaderTask == Pending && base.device.Some?
      modifies this
      ensures Valid()
      ensures vertexShaderTask == if D.AllSucceed(gpu, VertexShaderCalls) then Done else Faulted
      ensures vertexShader ==
        if gpu.Fails(ReadVertexShaderFile) then old(vertexShader)
        else if gpu.Fails(CreateVertexShader) then None
        else Some(Handle(VertexShader, base.device.value))
      ensures inputLayout ==
        if gpu.Fails(ReadVertexShaderFile) || gpu.Fails(CreateVertexShader) then old(inputLayout)
        else if gpu.Fails(CreateInputLayout) then None
        else Some(Handle(InputLayout, base.device.value))
      ensures loadingComplete == old(loadingComplete) && constantBufferData == old(constantBufferData)
      ensures vertexBuffer == old(vertexBuffer) && vertexBuffer2 == old(vertexBuffer2) && indexBuffer == old(indexBuffer)
      ensures pixelShader == old(pixelShader) && constantBuffer == old(constantBuffer) && indexCount == old(indexCount)
      ensures rasterizerState == old(rasterizerState) && rasterizerStateBack == old(rasterizerStateBack)
      ensures pixelShaderTask == old(pixelShaderTask) && geometryTask == old(geometryTask) && completionTask == old(completionTask)
    {
      if gpu.Fails(ReadVertexShaderFile) {
        assert VertexShaderCalls[0] == ReadVertexShaderFile;
        vertexShaderTask := Faulted;
        return;
      }
      vertexShader := None;
      if gpu.Fails(CreateVertexShader) {
        assert VertexShaderCalls[1] == CreateVertexShader;
        vertexShaderTask := Faulted;
        return;
      }
      vertexShader := Some(Handle(VertexShader, base.device.value));
      inputLayout := None;
      if gpu.Fails(CreateInputLayout) {
        assert VertexShaderCalls[2] == CreateInputLayout;
        vertexShaderTask := Faulted;
        return;
      }
      inputLayout := Some(Handle(InputLayout, base.device.value));
      vertexShaderTask := Done;
    }

    /**
     * The pixel-shader task: read the compiled shader, create the pixel shader, then the
     * constant buffer, with the same failure behaviour as the vertex-shader task.
     */
    method RunPixelShaderTask(gpu: Gpu)
      requires Valid() && pixelShaderTask == Pending && base.device.Some?
      modifies this
      ensures Valid()
      ensures pixelShaderTask == if D.AllSucceed(gpu, PixelShaderCalls) then Done else Faulted
      ensures pixelShader ==
        if gpu.Fails(ReadPixelShaderFile) then old(pixelShader)
        else if gpu.Fails(CreatePixelShader) then None
        else Some(Handle(PixelShader, base.device.value))
      ensures constantBuffer ==
        if gpu.Fails(ReadPixelShaderFile) || gpu.Fails(CreatePixelShader) then old(constantBuffer)
        else if gpu.Fails(CreateConstantBuffer) then None
        else Some(Handle(ConstantBuffer, base.device.value))
      ensures loadingComplete == old(loadingComplete) && constantBufferData == old(constantBufferData)
      ensures vertexBuffer == old(vertexBuffer) && vertexBuffer2 == old(vertexBuffer2) && indexBuffer == old(indexBuffer)
      ensures vertexShader == old(vertexShader) && inputLayout == old(inputLayout) && indexCount == old(indexCount)
      ensures rasterizerState == old(rasterizerState) && rasterizerStateBack == old(rasterizerStateBack)
      ensures vertexShaderTask == old(vertexShaderTask) && geometryTask == old(geometryTask) && completionTask == old(completionTask)
    {
      if gpu.Fails(ReadPixelShaderFile) {
        assert PixelShaderCalls[0] == ReadPixelShaderFile;
        pixelShaderTask := Faulted;
        return;
      }
      pixelShader := None;
      if gpu.Fails(CreatePixelShader) {
        assert PixelShaderCalls[1] == CreatePixelShader;
        pixelShaderTask := Faulted;
        return;
      }
      pixelShader := Some(Handle(PixelShader, base.device.value));
      constantBuffer := None;
      if gpu.Fails(CreateConstantBuffer) {
        assert PixelShaderCalls[2] == CreateConstantBuffer;
        pixelShaderTask := Faulted;
        return;
      }
      constantBuffer := Some(Handle(ConstantBuffer, base.device.value));
      pixelShaderTask := Done;
    }

    /**
     * The geometry task, the continuation of both shader tasks: it runs only when both
     * succeeded.  It creates the buffers, then the front-cull and back-cull rasterizer
     * states without checking either creation.
     */
    method RunGeometryTask(gpu: Gpu)
      requires Valid() && geometryTask == Pending && base.device.Some?
      requires Settled(vertexShaderTask) && Settled(pixelShaderTask)
      modifies this
      ensures Valid()
      ensures geometryTask ==
        if vertexShaderTask == Done && pixelShaderTask == Done && D.AllSucceed(gpu, GeometryCalls) then Done else Faulted
      ensures geometryTask == Done ==>
        && vertexBuffer == Some(Handle(VertexBuffer, base.device.value))
        && vertexBuffer2 == Some(Handle(VertexBuffer2, base.device.value))
        && indexBuffer == Some(Handle(IndexBuffer, base.device.value))
        && indexCount == |TriangleIndices|
        && rasterizerState == (if gpu.Fails(CreateRasterizerStateFront) then None else Some(FrontCullDesc))
        && rasterizerStateBack == (if gpu.Fails(CreateRasterizerStateBack) then None else Some(BackCullDesc))
      ensures geometryTask == Faulted ==>
        rasterizerState == old(rasterizerState) && rasterizerStateBack == old(rasterizerStateBack)
      ensures !(vertexShaderTask == Done && pixelShaderTask == Done) ==> ObjectState() == old(ObjectState())
      ensures loadingComplete == old(loadingComplete) && constantBufferData == old(constantBufferData)
      ensures vertexShader == old(vertexShader) && inputLayout == old(inputLayout)
      ensures pixelShader == old(pixelShader) && constantBuffer == old(constantBuffer)
      ensures vertexShaderTask == old(vertexShaderTask) && pixelShaderTask == old(pixelShaderTask)
      ensures completionTask == old(completionTask)
    {
      if vertexShaderTask == Faulted || pixelShaderTask == Faulted {
        geometryTask := Faulted;
        return;
      }
      var status := CreateGeometryBuffers(gpu);
      if status.Thrown? {
        geometryTask := Faulted;
        return;
      }
      rasterizerState := if gpu.Fails(CreateRasterizerStateFront) then None else Some(FrontCullDesc);
      rasterizerStateBack := if gpu.Fails(CreateRasterizerStateBack) then None else Some(BackCullDesc);
      geometryTask := Done;
    }

    /**
     * The checked part of the geometry task: the first vertex buffer, the second, the index
     * count, the index buffer.  A failed creation leaves that pointer null and stops the task.
     */
    method CreateGeometryBuffers(gpu: Gpu) returns (status: Status)
      requires base.device.Some?
      modifies this
      ensures status == D.CallsStatus(gpu, GeometryCalls)
      ensures vertexBuffer ==
        if gpu.Fails(CreateVertexBuffer) then None else Some(Handle(VertexBuffer, base.device.value))
      ensures vertexBuffer2 ==
        if gpu.Fails(CreateVertexBuffer) then old(vertexBuffer2)
        else if gpu.Fails(CreateVertexBuffer2) then None
        else Some(Handle(VertexBuffer2, base.device.value))
      ensures indexCount ==
        if gpu.Fails(CreateVertexBuffer) || gpu.Fails(CreateVertexBuffer2) then old(indexCount) else |TriangleIndices|
      ensures indexBuffer ==
        if gpu.Fails(CreateVertexBuffer) || gpu.Fails(CreateVertexBuffer2) then old(indexBuffer)
        else if gpu.Fails(CreateIndexBuffer) then None
        else Some(Handle(IndexBuffer, base.device.value))
      ensures loadingComplete == old(loadingComplete) && constantBufferData == old(constantBufferData)
      ensures vertexShader == old(vertexShader) && inputLayout == old(inputLayout)
      ensures pixelShader == old(pixelShader) && constantBuffer == old(constantBuffer)
      ensures rasterizerState == old(rasterizerState) && rasterizerStateBack == old(rasterizerStateBack)
      ensures TaskStates() == old(TaskStates())
    {
      vertexBuffer := None;
      if gpu.Fails(CreateVertexBuffer) {
        D.ThrowsAt(gpu, GeometryCalls, 0);
        return Thrown(ApiFailed(CreateVertexBuffer));
      }
      vertexBuffer := Some(Handle(VertexBuffer, base.device.value));
      vertexBuffer2 := None;
      if gpu.Fails(CreateVertexBuffer2) {
        D.ThrowsAt(gpu, GeometryCalls, 1);
        return Thrown(ApiFailed(CreateVertexBuffer2));
      }
      vertexBuffer2 := Some(Handle(VertexBuffer2, base.device.value));
      indexCount := |TriangleIndices|;
      indexBuffer := None;
      if gpu.Fails(CreateIndexBuffer) {
        D.ThrowsAt(gpu, GeometryCalls, 2);
        return Thrown(ApiFailed(CreateIndexBuffer));
      }
      indexBuffer := Some(Handle(IndexBuffer, base.device.value));
      return Ok;
    }

    /** The last continuation: when the geometry task succeeded, loading is complete. */
    method RunCompletionTask()
      requires Valid() && completionTask == Pending && Settled(geometryTask)
      modifies this
      ensures Valid()
      ensures loadingComplete == (old(loadingComplete) || geometryTask == Done)
      ensures completionTask == if geometryTask == Done then Done else Faulted
      ensures loadingComplete && !old(loadingComplete) ==>
        vertexShaderTask == Done && pixelShaderTask == Done && geometryTask == Done && indexCount == |TriangleIndices|
      ensures ObjectState() == old(ObjectState()) && constantBufferData == old(constantBufferData)
      ensures TaskStates() == old(TaskStates()).(completion := completionTask)
    {
      if geometryTask == Done {
        loadingComplete := true;
        completionTask := Done;
      } else {
        completionTask := Faulted;
      }
    }

    /**
     * CubeRenderer::CreateWindowSizeDependentResources: the base rebuilds the surface; then
     * the projection, and nothing else in the constant buffer, is recomputed from the saved
     * window bounds (not the render-target size) and the orientation transform.
     */
    method CreateWindowSizeDependentResources(window: Window, gpu: Gpu) returns (status: Status)
      requires Valid() && base.device.Some? && base.context.Some?
      modifies this, base
      ensures Valid()
      ensures base.device == old(base.device) && base.context == old(base.context)
      ensures base.devicesCreated == old(base.devicesCreated) && base.sizeRebuilds == old(base.sizeRebuilds) + 1
      ensures base.windowBounds == window.bounds && base.orientation == window.orientation
      ensures status == D.SizeDependentStatus(gpu, old(base.swapChain).Some?, window.orientation)
      ensures status.Ok? ==> base.SurfaceReady()
      ensures status.Ok? && old(base.swapChain).Some? ==> base.swapChain.value.device == old(base.swapChain).value.device
      ensures status.Ok? && old(base.swapChain).None? ==> base.swapChain.value.device == base.device.value
      ensures status.Ok? ==> base.commands == old(base.commands) + [RSSetViewports(base.viewport.value)]
      ensures status.Thrown? ==> base.commands == old(base.commands)
      ensures status.Ok? ==> constantBufferData == old(constantBufferData).(
        projection := ProjectionMatrix(window.bounds.width, window.bounds.height,
                                       Display.OrientationSetup(window.orientation).value.transform))
      ensures status.Thrown? ==> constantBufferData == old(constantBufferData)
      ensures loadingComplete == old(loadingComplete) && ObjectState() == old(ObjectState())
      ensures TaskStates() == old(TaskStates())
    {
      status := base.CreateWindowSizeDependentResources(window, gpu);
      if status.Thrown? {
        return;
      }
      constantBufferData := constantBufferData.(
        projection := ProjectionMatrix(base.windowBounds.width, base.windowBounds.height, base.orientationTransform));
    }

    /** CubeRenderer::Update: the view and the time-dependent model matrix; the projection is kept. */
    method Update(timeTotal: real, timeDelta: real)
      modifies this
      ensures constantBufferData == ConstantBufferData(ModelMatrix(timeTotal), ViewMatrix(), old(constantBufferData).projection)
      ensures loadingComplete == old(loadingComplete) && ObjectState() == old(ObjectState())
      ensures TaskStates() == old(TaskStates())
    {
      constantBufferData := constantBufferData.(view := ViewMatrix());
      constantBufferData := constantBufferData.(model := ModelMatrix(timeTotal));
    }

    /** CubeRenderer::RenderObject: bind one vertex buffer and the shared objects, draw front-cull, then back-cull. */
    method RenderObject(objectVertexBuffer: Option<Handle>)
      requires base.context.Some?
      modifies base
      ensures base.commands == old(base.commands) + ObjectCommands(objectVertexBuffer, CurrentBindings())
      ensures base.SurfaceState() == old(base.SurfaceState())
      ensures base.device == old(base.device) && base.context == old(base.context)
      ensures base.devicesCreated == old(base.devicesCreated) && base.sizeRebuilds == old(base.sizeRebuilds)
    {
      base.commands := base.commands + BindObject(objectVertexBuffer, CurrentBindings());
      base.commands := base.commands + Pass(rasterizerState, indexCount);
      base.commands := base.commands + Pass(rasterizerStateBack, indexCount);
    }

    /**
     * CubeRenderer::Render: clear the render target to midnight blue and the depth buffer to
     * 1.0; while loading, stop there; once loaded, bind the targets, upload the constant
     * buffer, and render the first object, then the second (Frame.ReplayFrameAfter gives
     * what the frame does to the context).
     */
    method Render()
      requires base.context.Some?
      modifies base
      ensures base.commands == old(base.commands) + FrameCommands(loadingComplete, base.renderTargetView,
        base.depthStencilView, constantBufferData, vertexBuffer, vertexBuffer2, CurrentBindings())
      ensures base.SurfaceState() == old(base.SurfaceState())
      ensures base.device == old(base.device) && base.context == old(base.context)
      ensures base.devicesCreated == old(base.devicesCreated) && base.sizeRebuilds == old(base.sizeRebuilds)
    {
      var rtv, dsv := base.renderTargetView, base.depthStencilView;
      base.commands := base.commands + Clears(rtv, dsv);
      if !loadingComplete {
        return;
      }
      base.commands := base.commands + [OMSetRenderTargets(rtv, dsv), UpdateSubresource(constantBuffer, constantBufferData)];
      RenderObject(vertexBuffer);
      RenderObject(vertexBuffer2);
    }

    /** Direct3DBase::Initialize: create the device resources, then the window-size-dependent ones. */
    method Initialize(window: Window, gpu: Gpu) returns (status: Status)
      requires Valid()
      modifies this, base
      ensures Valid()
      ensures status ==
        if D.CallsStatus(gpu, D.DeviceCalls).Thrown? then D.CallsStatus(gpu, D.DeviceCalls)
        else D.SizeDependentStatus(gpu, old(base.swapChain).Some?, window.orientation)
      ensures status.Ok? ==> base.SurfaceReady() && base.windowBounds == window.bounds && base.orientation == window.orientation
      ensures status.Ok? ==> base.device == Some(base.devicesCreated) && base.context == Some(base.devicesCreated)
      ensures status.Ok? ==> base.commands == old(base.commands) + [NewImmediateContext, RSSetViewports(base.viewport.value)]
      ensures status.Ok? && old(base.swapChain).None? ==> base.swapChain.value.device == base.devicesCreated
      ensures status.Ok? ==> TaskStates() == Tasks(Pending, Pending, Pending, Pending)
      ensures status.Ok? ==>
        constantBufferData.projection == ProjectionMatrix(window.bounds.width, window.bounds.height,
                                                          Display.OrientationSetup(window.orientation).value.transform)
      ensures status.Ok? ==>
        constantBufferData == old(constantBufferData).(
          projection := ProjectionMatrix(window.bounds.width, window.bounds.height,
                                         Display.OrientationSetup(window.orientation).value.transform))
      ensures status.Thrown? ==> constantBufferData == old(constantBufferData)
      ensures D.CallsStatus(gpu, D.DeviceCalls).Thrown? ==>
        && base.sizeRebuilds == old(base.sizeRebuilds) && base.SurfaceState() == old(base.SurfaceState())
        && base.commands == old(base.commands) && TaskStates() == old(TaskStates())
      ensures D.CallsStatus(gpu, D.DeviceCalls).Ok? ==> base.sizeRebuilds == old(base.sizeRebuilds) + 1
      ensures loadingComplete == old(loadingComplete) && ObjectState() == old(ObjectState())
    {
      status := CreateDeviceResources(gpu);
      if status.Thrown? {
        return;
      }
      status := CreateWindowSizeDependentResources(window, gpu);
    }

    /**
     * Direct3DBase::UpdateForWindowSizeChange: when the window's size or the orientation
     * differs from the saved one, unbind and release both views, flush, and rebuild the
     * size-dependent resources; otherwise do nothing.  Either way the saved size and
     * orientation then match the window, so an immediate second call does nothing.
     */
    method UpdateForWindowSizeChange(window: Window, gpu: Gpu) returns (status: Status)
      requires Valid() && base.device.Some? && base.context.Some?
      modifies this, base
      ensures Valid()
      ensures !base.SizeChanged(window)
      ensures old(base.SizeChanged(window)) ==>
        && base.sizeRebuilds == old(base.sizeRebuilds) + 1
        && status == D.SizeDependentStatus(gpu, old(base.swapChain).Some?, window.orientation)
        && old(base.commands) + [OMSetRenderTargets(None, None), Flush] <= base.commands
      ensures old(base.SizeChanged(window)) && status.Ok? ==>
        && base.SurfaceReady()
        && constantBufferData.projection == ProjectionMatrix(window.bounds.width, window.bounds.height,
                                                             Display.OrientationSetup(window.orientation).value.transform)
        && constantBufferData == old(constantBufferData).(
             projection := ProjectionMatrix(window.bounds.width, window.bounds.height,
                                            Display.OrientationSetup(window.orientation).value.transform))
        && base.commands == old(base.commands) + [OMSetRenderTargets(None, None), Flush]
                                               + [RSSetViewports(base.viewport.value)]
      ensures status.Thrown? ==>
        && constantBufferData == old(constantBufferData)
        && base.commands == old(base.commands) + [OMSetRenderTargets(None, None), Flush]
      ensures old(base.commands) <= base.commands
      ensures !old(base.SizeChanged(window)) ==>
        && status.Ok? && base.sizeRebuilds == old(base.sizeRebuilds)
        && base.SurfaceState() == old(base.SurfaceState()) && base.commands == old(base.commands)
        && constantBufferData == old(constantBufferData)
      ensures base.device == old(base.device) && base.context == old(base.context)
      ensures base.devicesCreated == old(base.devicesCreated)
      ensures old(base.swapChain).Some? && status.Ok? ==> base.swapChain.value.device == old(base.swapChain).value.device
      ensures old(base.swapChain).None? && status.Ok? && old(base.SizeChanged(window)) ==>
        base.swapChain.value.device == base.device.value
      ensures loadingComplete == old(loadingComplete) && ObjectState() == old(ObjectState())
      ensures TaskStates() == old(TaskStates())
    {
      if base.SizeChanged(window) {
        base.ReleaseSizeDependentViews();
        status := CreateWindowSizeDependentResources(window, gpu);
      } else {
        status := Ok;
      }
    }

    /**
     * Direct3DBase::HandleDeviceLost: zero the saved width and height and drop the swap
     * chain, recreate the device (restarting the loading chain), then update for the window
     * size.  m_loadingComplete is left as it was.
     */
    method HandleDeviceLost(window: Window, gpu: Gpu) returns (status: Status)
      requires Valid()
      modifies this, base
      ensures Valid()
      ensures D.CallsStatus(gpu, D.DeviceCalls).Thrown? ==>
        && status == D.CallsStatus(gpu, D.DeviceCalls)
        && base.swapChain.None?
        && base.windowBounds == old(base.windowBounds).(width := 0.0, height := 0.0)
        && base.commands == old(base.commands) && TaskStates() == old(TaskStates())
      ensures D.CallsStatus(gpu, D.DeviceCalls).Ok? ==>
        && base.devicesCreated == old(base.devicesCreated) + 1
        && base.device == Some(base.devicesCreated) && base.context == Some(base.devicesCreated)
        && TaskStates() == Tasks(Pending, Pending, Pending, Pending)
      ensures var rebuild := window.bounds.width != 0.0 || window.bounds.height != 0.0 || window.orientation != old(base.orientation);
        && (D.CallsStatus(gpu, D.DeviceCalls).Ok? && !rebuild ==>
              && status.Ok? && base.swapChain.None? && base.sizeRebuilds == old(base.sizeRebuilds)
              && base.commands == old(base.commands) + [NewImmediateContext]
              && base.SurfaceState() == old(base.SurfaceState()).(
                   windowBounds := old(base.windowBounds).(width := 0.0, height := 0.0), swapChain := None))
        && (D.CallsStatus(gpu, D.DeviceCalls).Ok? && rebuild && status.Ok? ==>
              && base.viewport.Some?
              && base.commands == old(base.commands)
                   + [NewImmediateContext, OMSetRenderTargets(None, None), Flush, RSSetViewports(base.viewport.value)])
        && (D.CallsStatus(gpu, D.DeviceCalls).Ok? && rebuild && status.Thrown? ==>
              base.commands == old(base.commands) + [NewImmediateContext, OMSetRenderTargets(None, None), Flush])
        && (D.CallsStatus(gpu, D.DeviceCalls).Ok? && rebuild ==>
              && base.sizeRebuilds == old(base.sizeRebuilds) + 1
              && status == D.SizeDependentStatus(gpu, false, window.orientation)
              && (status.Ok? ==> base.SurfaceReady() && base.swapChain.value.device == base.devicesCreated))
        && (D.CallsStatus(gpu, D.DeviceCalls).Ok? && rebuild && status.Ok? ==>
              constantBufferData == old(constantBufferData).(
                projection := ProjectionMatrix(window.bounds.width, window.bounds.height,
                                               Display.OrientationSetup(window.orientation).value.transform)))
        && (!(D.CallsStatus(gpu, D.DeviceCalls).Ok? && rebuild && status.Ok?) ==>
              constantBufferData == old(constantBufferData))
      ensures old(base.commands) <= base.commands
      ensures loadingComplete == old(loadingComplete) && ObjectState() == old(ObjectState())
    {
      base.ResetForDeviceLost();
      status := CreateDeviceResources(gpu);
      if status.Thrown? {
        return;
      }
      status := UpdateForWindowSizeChange(window, gpu);
    }

    /**
     * Direct3DBase::Present: present with a one-interval sync and discard both views; then a
     * device-removed result recovers through HandleDeviceLost instead of throwing, any other
     * failing result throws, and success returns.  hr is what Present1 returned.
     */
    method Present(hr: int, window: Window, gpu: Gpu) returns (status: Status)
      requires Valid() && base.context.Some?
      modifies this, base
      ensures Valid()
      ensures old(base.swapChain).None? ==> status == Thrown(NullSwapChain) && base.commands == old(base.commands)
      ensures old(base.swapChain).Some? ==>
        old(base.commands) + [Context.Present(1), DiscardView(old(base.renderTargetView)), DiscardView(old(base.depthStencilView))]
          <= base.commands
      ensures old(base.swapChain).Some? && hr != DeviceRemoved ==>
        && status == (if Failed(hr) then Thrown(PresentFailed(hr)) else Ok)
        && base.SurfaceState() == old(base.SurfaceState())
        && base.devicesCreated == old(base.devicesCreated)
        && base.commands == old(base.commands)
             + [Context.Present(1), DiscardView(old(base.renderTargetView)), DiscardView(old(base.depthStencilView))]
      ensures !(old(base.swapChain).Some? && hr == DeviceRemoved) ==>
        && base.SurfaceState() == old(base.SurfaceState()) && base.devicesCreated == old(base.devicesCreated)
        && base.device == old(base.device) && base.context == old(base.context)
        && base.sizeRebuilds == old(base.sizeRebuilds)
        && TaskStates() == old(TaskStates()) && constantBufferData == old(constantBufferData)
      ensures old(base.swapChain).Some? && hr == DeviceRemoved ==>
        && !(status.Thrown? && status.failure.PresentFailed?)
        && (D.CallsStatus(gpu, D.DeviceCalls).Ok? ==> base.devicesCreated == old(base.devicesCreated) + 1)
      ensures loadingComplete == old(loadingComplete) && ObjectState() == old(ObjectState())
    {
      status := base.PresentFrame();
      if status.Thrown? {
        return;
      }
      if hr == DeviceRemoved {
        status := HandleDeviceLost(window, gpu);
      } else if Failed(hr) {
        status := Thrown(PresentFailed(hr));
      } else {
        status := Ok;
      }
    }
  }
}

=== FILE: direct3d_base.dfy ===
/**
 * Direct3DBase: the device, the swap chain and the size-dependent surface (render-target
 * view, depth-stencil view, viewport, orientation transform), and the non-virtual steps
 * that create, release and present them.  The steps that call virtual members
 * (Initialize, HandleDeviceLost, UpdateForWindowSizeChange, Present) are completed in
 * CubeRenderer, the only class derived from this one.
 */
module Direct3DBase {
  import opened Platform
  import opened Display
  import opened Context
  import M = Matrices

  /** The fields CreateWindowSizeDependentResources writes, as one value. */
  datatype Surface = Surface(
    windowBounds: Rect, orientation: DisplayOrientations, renderTargetSize: PixelSize,
    swapChain: Option<SwapChain>, renderTargetView: Option<View>, depthStencilView: Option<View>,
    viewport: Option<Viewport>, orientationTransform: M.Matrix)

  /** The calls of Direct3DBase::CreateDeviceResources whose result is checked, in order. */
  const DeviceCalls: seq<Api> := [CreateDevice, QueryDevice1, QueryContext1]

  /**
   * The checked calls that bring the swap chain to the render-target size: ResizeBuffers
   * when one exists, the five calls that create one when none does.
   */
  function SwapChainCalls(resize: bool): seq<Api> {
    if resize then [ResizeBuffers]
    else [QueryDxgiDevice, GetAdapter, GetFactory, CreateSwapChainForCoreWindow, SetMaximumFrameLatency]
  }

  /** The checked calls after the orientation switch that end in the render-target view, in order. */
  const RenderTargetCalls: seq<Api> := [SetRotation, GetBuffer, CreateRenderTargetView]

  /** The checked calls that create the depth-stencil view, in order. */
  const DepthStencilCalls: seq<Api> := [CreateTexture2D, CreateDepthStencilView]

  /** The checked calls after the orientation switch, in order. */
  const ViewCalls: seq<Api> := RenderTargetCalls + DepthStencilCalls

  /** No call in the list fails. */
  predicate AllSucceed(gpu: Gpu, calls: seq<Api>) {
    forall i :: 0 <= i < |calls| ==> !gpu.Fails(calls[i])
  }

  /** The first call of the list that fails, whose ThrowIfFailed is the one that throws. */
  function FirstFailure(gpu: Gpu, calls: seq<Api>): (r: Option<Api>)
    ensures r.None? <==> AllSucceed(gpu, calls)
    ensures r.Some? ==> r.value in calls && gpu.Fails(r.value)
    decreases |calls|
  {
    if calls == [] then None
    else if gpu.Fails(calls[0]) then Some(calls[0])
    else
      var r := FirstFailure(gpu, calls[1..]);
      assert r.None? ==> AllSucceed(gpu, calls) by {
        if r.None? {
          forall i | 0 <= i < |calls| ensures !gpu.Fails(calls[i]) {
            if i > 0 { assert calls[i] == calls[1..][i - 1]; }
          }
        }
      }
      r
  }

  /** The call FirstFailure names fails, and every call before it succeeds. */
  lemma {:induction false} FirstFailureIsFirst(gpu: Gpu, calls: seq<Api>)
    requires FirstFailure(gpu, calls).Some?
    ensures exists i ::
      0 <= i < |calls| && calls[i] == FirstFailure(gpu, calls).value && gpu.Fails(calls[i]) && AllSucceed(gpu, calls[..i])
    decreases |calls|
  {
    if gpu.Fails(calls[0]) {
      assert calls[..0] == [];
    } else {
      var tail := calls[1..];
      FirstFailureIsFirst(gpu, tail);
      var i :| 0 <= i < |tail| && tail[i] == FirstFailure(gpu, tail).value && gpu.Fails(tail[i]) && AllSucceed(gpu, tail[..i]);
      assert calls[i + 1] == tail[i];
      var prefix, before := calls[..i + 1], tail[..i];
      forall j | 0 <= j < i + 1 ensures !gpu.Fails(prefix[j]) {
        if j > 0 {
          assert prefix[j] == before[j - 1];
        }
      }
    }
  }

  /** When the first k calls succeed, the first failure lies in the rest of the list. */
  lemma {:induction false} FirstFailureSkips(gpu: Gpu, calls: seq<Api>, k: nat)
    requires k <= |calls| && AllSucceed(gpu, calls[..k])
    ensures FirstFailure(gpu, calls) == FirstFailure(gpu, calls[k..])
    decreases k
  {
    if k > 0 {
      var prefix, tail := calls[..k], calls[1..];
      var rest := tail[..k - 1];
      assert !gpu.Fails(prefix[0]);
      assert AllSucceed(gpu, rest) by {
        forall i | 0 <= i < k - 1 ensures !gpu.Fails(rest[i]) {
          assert rest[i] == prefix[i + 1];
        }
      }
      FirstFailureSkips(gpu, tail, k - 1);
      assert tail[k - 1..] == calls[k..];
    }
  }

  /** The status of a run of checked calls: the first failure is thrown. */
  function CallsStatus(gpu: Gpu, calls: seq<Api>): (r: Status)
    ensures r.Ok? <==> AllSucceed(gpu, calls)
    ensures r.Thrown? ==> r.failure.ApiFailed? && r.failure.api in calls && gpu.Fails(r.failure.api)
  {
    var first := FirstFailure(gpu, calls);
    if first.Some? then Thrown(ApiFailed(first.value)) else Ok
  }

  /** The first failure of a + b is the first failure of a, or failing that, of b. */
  lemma {:induction false} FirstFailureAppend(gpu: Gpu, a: seq<Api>, b: seq<Api>)
    ensures FirstFailure(gpu, a + b) == if FirstFailure(gpu, a).Some? then FirstFailure(gpu, a) else FirstFailure(gpu, b)
    decreases |a|
  {
    if a == [] {
      assert a + b == b;
    } else {
      assert (a + b)[0] == a[0];
      assert (a + b)[1..] == a[1..] + b;
      FirstFailureAppend(gpu, a[1..], b);
    }
  }

  /** Running two lists of checked calls in turn throws what the first throws, or else what the second does. */
  lemma CallsStatusAppend(gpu: Gpu, a: seq<Api>, b: seq<Api>)
    ensures CallsStatus(gpu, a + b) == if CallsStatus(gpu, a).Thrown? then CallsStatus(gpu, a) else CallsStatus(gpu, b)
  {
    FirstFailureAppend(gpu, a, b);
  }

  /** The k-th call fails after the ones before it succeeded: it is the one that throws. */
  lemma ThrowsAt(gpu: Gpu, calls: seq<Api>, k: nat)
    requires k < |calls| && AllSucceed(gpu, calls[..k]) && gpu.Fails(calls[k])
    ensures CallsStatus(gpu, calls) == Thrown(ApiFailed(calls[k]))
  {
    FirstFailureSkips(gpu, calls, k);
    assert calls[k..][0] == calls[k];
  }

  /**
   * How CreateWindowSizeDependentResources ends: the first failing swap-chain call throws;
   * then an orientation outside the four cases throws; then the first failing view call.
   */
  function SizeDependentStatus(gpu: Gpu, resize: bool, o: DisplayOrientations): (r: Status)
    ensures r.Ok? <==> AllSucceed(gpu, SwapChainCalls(resize)) && IsSupported(o) && AllSucceed(gpu, ViewCalls)
    ensures r.Thrown? ==>
      r.failure == UnsupportedOrientation(o) || (r.failure.ApiFailed? && gpu.Fails(r.failure.api) && (r.failure.api in SwapChainCalls(resize) || r.failure.api in ViewCalls))
  {
    if CallsStatus(gpu, SwapChainCalls(resize)).Thrown? then CallsStatus(gpu, SwapChainCalls(resize))
    else if !IsSupported(o) then Thrown(UnsupportedOrientation(o))
    else CallsStatus(gpu, ViewCalls)
  }

  class Direct3DBase {
    var windowBounds: Rect
    var orientation: DisplayOrientations
    var renderTargetSize: PixelSize
    var swapChain: Option<SwapChain>
    var renderTargetView: Option<View>
    var depthStencilView: Option<View>
    /** The viewport last set on the context. */
    var viewport: Option<Viewport>
    var orientationTransform: M.Matrix
    /** The device and the immediate context, by the number of the device they belong to. */
    var device: Option<nat>
    var context: Option<nat>
    /** How many devices have been created; device n is the n-th. */
    var devicesCreated: nat
    /** Every command issued to the context or the swap chain, in order. */
    ghost var commands: seq<Command>
    /** How many times the size-dependent resources have been (re)built. */
    ghost var sizeRebuilds: nat

    function SurfaceState(): Surface
      reads this
    {
      Surface(windowBounds, orientation, renderTargetSize, swapChain, renderTargetView, depthStencilView,
              viewport, orientationTransform)
    }

    /**
     * The surface agrees with itself: a double-buffered swap chain, both views and a
     * (0,0)-origin viewport, all of the render-target size, and the rotation and transform
     * the saved orientation selects.
     */
    predicate SurfaceReady()
      reads this
    {
      && IsSupported(orientation)
      && swapChain.Some? && renderTargetView.Some? && depthStencilView.Some? && viewport.Some?
      && swapChain.value.width == renderTargetSize.width
      && swapChain.value.height == renderTargetSize.height
      && swapChain.value.bufferCount == 2
      && swapChain.value.rotation == OrientationSetup(orientation).value.rotation
      && orientationTransform == OrientationSetup(orientation).value.transform
      && renderTargetView.value.kind == RenderTargetView
      && renderTargetView.value.width == renderTargetSize.width
      && renderTargetView.value.height == renderTargetSize.height
      && depthStencilView.value.kind == DepthStencilView
      && depthStencilView.value.width == renderTargetSize.width
      && depthStencilView.value.height == renderTargetSize.height
      && viewport.value == Viewport(0, 0, renderTargetSize.width, renderTargetSize.height)
    }

    /** A new object: no device, no swap chain, no views, zero-initialised fields. */
    constructor()
      ensures windowBounds == Rect(0.0, 0.0, 0.0, 0.0) && orientation == OrientationNone
      ensures renderTargetSize == PixelSize(0, 0) && orientationTransform == M.Zero
      ensures swapChain.None? && renderTargetView.None? && depthStencilView.None? && viewport.None?
      ensures device.None? && context.None? && devicesCreated == 0
      ensures commands == [] && sizeRebuilds == 0
    {
      windowBounds := Rect(0.0, 0.0, 0.0, 0.0);
      orientation := OrientationNone;
      renderTargetSize := PixelSize(0, 0);
      swapChain := None;
      renderTargetView := None;
      depthStencilView := None;
      viewport := None;
      orientationTransform := M.Zero;
      device := None;
      context := None;
      devicesCreated := 0;
      commands := [];
      sizeRebuilds := 0;
    }

    /**
     * Direct3DBase::CreateDeviceResources: create a device and its immediate context, then
     * take their 11.1 interfaces.  A failed query leaves that pointer null.  Once the context
     * pointer is the new device's, commands go to a context in its default state.
     */
    method CreateDeviceResources(gpu: Gpu) returns (status: Status)
      modifies this
      ensures status == CallsStatus(gpu, DeviceCalls)
      ensures gpu.Fails(CreateDevice) ==> devicesCreated == old(devicesCreated) && device == old(device) && context == old(context)
      ensures !gpu.Fails(CreateDevice) ==> devicesCreated == old(devicesCreated) + 1
      ensures !gpu.Fails(CreateDevice) ==> device == (if gpu.Fails(QueryDevice1) then None else Some(devicesCreated))
      ensures !gpu.Fails(CreateDevice) && gpu.Fails(QueryDevice1) ==> context == old(context)
      ensures !gpu.Fails(CreateDevice) && !gpu.Fails(QueryDevice1) ==>
        context == (if gpu.Fails(QueryContext1) then None else Some(devicesCreated))
      ensures status.Ok? ==> device == Some(devicesCreated) && context == Some(devicesCreated)
      ensures SurfaceState() == old(SurfaceState())
      ensures commands == old(commands) + (if status.Ok? then [NewImmediateContext] else [])
      ensures sizeRebuilds == old(sizeRebuilds)
    {
      if gpu.Fails(CreateDevice) {
        ThrowsAt(gpu, DeviceCalls, 0);
        return Thrown(ApiFailed(CreateDevice));
      }
      devicesCreated := devicesCreated + 1;
      if gpu.Fails(QueryDevice1) {
        device := None;
        ThrowsAt(gpu, DeviceCalls, 1);
        return Thrown(ApiFailed(QueryDevice1));
      }
      device := Some(devicesCreated);
      if gpu.Fails(QueryContext1) {
        context := None;
        ThrowsAt(gpu, DeviceCalls, 2);
        return Thrown(ApiFailed(QueryContext1));
      }
      context := Some(devicesCreated);
      commands := commands + [NewImmediateContext];
      return Ok;
    }

    /**
     * Direct3DBase::CreateWindowSizeDependentResources: save the window's bounds and
     * orientation, size the render target in pixels, resize or create the swap chain, set
     * its rotation, and create the views and viewport of the render-target size.
     */
    method CreateWindowSizeDependentResources(window: Window, gpu: Gpu) returns (status: Status)
      requires device.Some? && context.Some?
      modifies this
      ensures device == old(device) && context == old(context) && devicesCreated == old(devicesCreated)
      ensures sizeRebuilds == old(sizeRebuilds) + 1
      ensures windowBounds == window.bounds && orientation == window.orientation
      ensures renderTargetSize == RenderTargetSize(window.orientation,
        ConvertDipsToPixels(window.bounds.width, window.logicalDpi),
        ConvertDipsToPixels(window.bounds.height, window.logicalDpi))
      ensures status == SizeDependentStatus(gpu, old(swapChain).Some?, window.orientation)
      ensures status.Ok? ==> SurfaceReady()
      ensures status.Ok? && old(swapChain).Some? ==> swapChain.value.device == old(swapChain).value.device
      ensures status.Ok? && old(swapChain).None? ==> swapChain.value.device == device.value
      ensures status.Ok? ==> renderTargetView.value.device == device.value && depthStencilView.value.device == device.value
      ensures status.Ok? ==> commands == old(commands) + [RSSetViewports(viewport.value)]
      ensures status.Thrown? ==> commands == old(commands) && viewport == old(viewport)
    {
      sizeRebuilds := sizeRebuilds + 1;
      windowBounds := window.bounds;
      var widthPx := ConvertDipsToPixels(windowBounds.width, window.logicalDpi);
      var heightPx := ConvertDipsToPixels(windowBounds.height, window.logicalDpi);
      orientation := window.orientation;
      renderTargetSize := RenderTargetSize(orientation, widthPx, heightPx);

      status := PrepareSwapChain(gpu);
      if status.Thrown? {
        return;
      }
      status := CreateOrientedTargets(gpu);
    }

    /**
     * The second half of CreateWindowSizeDependentResources: the orientation switch (an
     * orientation outside its four cases throws), the back-buffer view, the depth-stencil
     * view, and a viewport covering the whole render target.
     */
    method CreateOrientedTargets(gpu: Gpu) returns (status: Status)
      requires swapChain.Some? && device.Some?
      modifies this
      ensures device == old(device) && context == old(context) && devicesCreated == old(devicesCreated)
      ensures windowBounds == old(windowBounds) && orientation == old(orientation)
      ensures renderTargetSize == old(renderTargetSize) && sizeRebuilds == old(sizeRebuilds)
      ensures status == if IsSupported(orientation) then CallsStatus(gpu, ViewCalls) else Thrown(UnsupportedOrientation(orientation))
      ensures status.Ok? ==>
        && swapChain == Some(old(swapChain).value.(rotation := OrientationSetup(orientation).value.rotation))
        && orientationTransform == OrientationSetup(orientation).value.transform
        && renderTargetView == Some(View(RenderTargetView, swapChain.value.width, swapChain.value.height, device.value))
        && depthStencilView == Some(View(DepthStencilView, renderTargetSize.width, renderTargetSize.height, device.value))
        && viewport == Some(Viewport(0, 0, renderTargetSize.width, renderTargetSize.height))
        && commands == old(commands) + [RSSetViewports(viewport.value)]
      ensures status.Thrown? ==> commands == old(commands) && viewport == old(viewport)
    {
      var setup := OrientationSetup(orientation);
      if setup.None? {
        return Thrown(UnsupportedOrientation(orientation));
      }
      orientationTransform := setup.value.transform;
      CallsStatusAppend(gpu, RenderTargetCalls, DepthStencilCalls);
      status := ViewBackBuffer(gpu, setup.value.rotation);
      if status.Thrown? {
        return;
      }
      status := CreateDepthStencil(gpu);
      if status.Thrown? {
        return;
      }
      viewport := Some(Viewport(0, 0, renderTargetSize.width, renderTargetSize.height));
      commands := commands + [RSSetViewports(viewport.value)];
    }

    /**
     * Bring the swap chain to the render-target size: resize the existing one to two
     * buffers, keeping its rotation, or create one on the device's adapter and cap the
     * frame latency.  A swap chain is kept as soon as it is created.
     */
    method PrepareSwapChain(gpu: Gpu) returns (status: Status)
      requires device.Some?
      modifies this
      ensures device == old(device) && context == old(context) && devicesCreated == old(devicesCreated)
      ensures status == CallsStatus(gpu, SwapChainCalls(old(swapChain).Some?))
      ensures status.Ok? ==> swapChain == Some(
        if old(swapChain).Some?
        then old(swapChain).value.(width := renderTargetSize.width, height := renderTargetSize.height, bufferCount := 2)
        else SwapChain(renderTargetSize.width, renderTargetSize.height, 2, Unspecified, device.value))
      ensures SurfaceState() == old(SurfaceState()).(swapChain := swapChain)
      ensures commands == old(commands) && sizeRebuilds == old(sizeRebuilds)
    {
      if swapChain.Some? {
        if gpu.Fails(ResizeBuffers) {
          ThrowsAt(gpu, SwapChainCalls(true), 0);
          return Thrown(ApiFailed(ResizeBuffers));
        }
        swapChain := Some(swapChain.value.(width := renderTargetSize.width, height := renderTargetSize.height,
                                           bufferCount := 2));
      } else {
        if gpu.Fails(QueryDxgiDevice) {
          ThrowsAt(gpu, SwapChainCalls(false), 0);
          return Thrown(ApiFailed(QueryDxgiDevice));
        }
        if gpu.Fails(GetAdapter) {
          ThrowsAt(gpu, SwapChainCalls(false), 1);
          return Thrown(ApiFailed(GetAdapter));
        }
        if gpu.Fails(GetFactory) {
          ThrowsAt(gpu, SwapChainCalls(false), 2);
          return Thrown(ApiFailed(GetFactory));
        }
        if gpu.Fails(CreateSwapChainForCoreWindow) {
          ThrowsAt(gpu, SwapChainCalls(false), 3);
          return Thrown(ApiFailed(CreateSwapChainForCoreWindow));
        }
        swapChain := Some(SwapChain(renderTargetSize.width, renderTargetSize.height, 2, Unspecified, device.value));
        if gpu.Fails(SetMaximumFrameLatency) {
          ThrowsAt(gpu, SwapChainCalls(false), 4);
          return Thrown(ApiFailed(SetMaximumFrameLatency));
        }
      }
      return Ok;
    }

    /**
     * After the orientation switch: set the swap chain's rotation, then view its back
     * buffer.  The view is released before it is re-created.
     */
    method ViewBackBuffer(gpu: Gpu, rotation: Rotation) returns (status: Status)
      requires swapChain.Some? && device.Some?
      modifies this
      ensures device == old(device) && context == old(context) && devicesCreated == old(devicesCreated)
      ensures status == CallsStatus(gpu, RenderTargetCalls)
      ensures !gpu.Fails(SetRotation) ==> swapChain == Some(old(swapChain).value.(rotation := rotation))
      ensures status.Ok? ==>
        renderTargetView == Some(View(RenderTargetView, swapChain.value.width, swapChain.value.height, device.value))
      ensures status == Thrown(ApiFailed(CreateRenderTargetView)) ==> renderTargetView.None?
      ensures SurfaceState() == old(SurfaceState()).(swapChain := swapChain, renderTargetView := renderTargetView)
      ensures commands == old(commands) && sizeRebuilds == old(sizeRebuilds)
    {
      if gpu.Fails(SetRotation) {
        ThrowsAt(gpu, RenderTargetCalls, 0);
        return Thrown(ApiFailed(SetRotation));
      }
      swapChain := Some(swapChain.value.(rotation := rotation));

      if gpu.Fails(GetBuffer) {
        ThrowsAt(gpu, RenderTargetCalls, 1);
        return Thrown(ApiFailed(GetBuffer));
      }
      renderTargetView := None;
      if gpu.Fails(CreateRenderTargetView) {
        ThrowsAt(gpu, RenderTargetCalls, 2);
        return Thrown(ApiFailed(CreateRenderTargetView));
      }
      renderTargetView := Some(View(RenderTargetView, swapChain.value.width, swapChain.value.height, device.value));
      return Ok;
    }

    /**
     * Create a depth-stencil texture of the render-target size and a view of it.  The view
     * is released before it is re-created.
     */
    method CreateDepthStencil(gpu: Gpu) returns (status: Status)
      requires device.Some?
      modifies this
      ensures device == old(device) && context == old(context) && devicesCreated == old(devicesCreated)
      ensures status == CallsStatus(gpu, DepthStencilCalls)
      ensures status.Ok? ==>
        depthStencilView == Some(View(DepthStencilView, renderTargetSize.width, renderTargetSize.height, device.value))
      ensures status == Thrown(ApiFailed(CreateDepthStencilView)) ==> depthStencilView.None?
      ensures SurfaceState() == old(SurfaceState()).(depthStencilView := depthStencilView)
      ensures commands == old(commands) && sizeRebuilds == old(sizeRebuilds)
    {
      if gpu.Fails(CreateTexture2D) {
        ThrowsAt(gpu, DepthStencilCalls, 0);
        return Thrown(ApiFailed(CreateTexture2D));
      }
      depthStencilView := None;
      if gpu.Fails(CreateDepthStencilView) {
        ThrowsAt(gpu, DepthStencilCalls, 1);
        return Thrown(ApiFailed(CreateDepthStencilView));
      }
      depthStencilView := Some(View(DepthStencilView, renderTargetSize.width, renderTargetSize.height, device.value));
      return Ok;
    }

    /** The guard of UpdateForWindowSizeChange: the window's size or the orientation differs from the saved one. */
    predicate SizeChanged(window: Window)
      reads this
    {
      window.bounds.width != windowBounds.width ||
      window.bounds.height != windowBounds.height ||
      orientation != window.orientation
    }

    /** Unbind the targets, drop both views and flush, so that the swap chain can be resized. */
    method ReleaseSizeDependentViews()
      modifies this
      ensures SurfaceState() == old(SurfaceState()).(renderTargetView := None, depthStencilView := None)
      ensures commands == old(commands) + [OMSetRenderTargets(None, None), Flush]
      ensures device == old(device) && context == old(context) && devicesCreated == old(devicesCreated)
      ensures sizeRebuilds == old(sizeRebuilds)
    {
      commands := commands + [OMSetRenderTargets(None, None)];
      renderTargetView := None;
      depthStencilView := None;
      commands := commands + [Flush];
    }

    /** The first half of HandleDeviceLost: forget the saved size and the swap chain. */
    method ResetForDeviceLost()
      modifies this
      ensures SurfaceState() == old(SurfaceState()).(
        windowBounds := old(windowBounds).(width := 0.0, height := 0.0), swapChain := None)
      ensures device == old(device) && context == old(context) && devicesCreated == old(devicesCreated)
      ensures commands == old(commands) && sizeRebuilds == old(sizeRebuilds)
    {
      windowBounds := windowBounds.(width := 0.0, height := 0.0);
      swapChain := None;
    }

    /**
     * The first half of Present: present with a one-interval sync, then discard both views.
     * Presenting through a null swap chain is a crash, reported as NullSwapChain.
     */
    method PresentFrame() returns (status: Status)
      modifies this
      ensures status.Ok? <==> old(swapChain).Some?
      ensures status.Thrown? ==> status.failure == NullSwapChain && commands == old(commands)
      ensures status.Ok? ==>
        commands == old(commands) + [Present(1), DiscardView(renderTargetView), DiscardView(depthStencilView)]
      ensures SurfaceState() == old(SurfaceState())
      ensures device == old(device) && context == old(context) && devicesCreated == old(devicesCreated)
      ensures sizeRebuilds == old(sizeRebuilds)
    {
      if swapChain.None? {
        return Thrown(NullSwapChain);
      }
      commands := commands + [Present(1), DiscardView(renderTargetView), DiscardView(depthStencilView)];
      return Ok;
    }
  }
}

=== FILE: display.dfy ===
/**
 * The size and orientation arithmetic of Direct3DBase::CreateWindowSizeDependentResources:
 * DIP-to-pixel conversion, the render-target size of each display orientation, and the
 * orientation switch that picks the swap-chain rotation and the matching 3D transform.
 */
module Display {
  import opened Platform
  import M = Matrices

  /** DXGI_MODE_ROTATION: how the compositor turns the swap chain's buffers onto the display. */
  datatype Rotation = Unspecified | Identity | Rotate90 | Rotate180 | Rotate270

  /** The quarter turns a swap-chain rotation stands for (Unspecified counts as none). */
  function RotationTurn(r: Rotation): M.Turn {
    match r
    case Unspecified => M.Turn0
    case Identity => M.Turn0
    case Rotate90 => M.Turn90
    case Rotate180 => M.Turn180
    case Rotate270 => M.Turn270
  }

  /** The four orientations the switch has a case for. */
  predicate IsSupported(o: DisplayOrientations) {
    o == Landscape || o == Portrait || o == LandscapeFlipped || o == PortraitFlipped
  }

  /** The orientations whose swap chain is taller than wide in the display's landscape frame. */
  predicate IsPortrait(o: DisplayOrientations) {
    o == Portrait || o == PortraitFlipped
  }

  /** What one case of the orientation switch selects. */
  datatype Setup = Setup(rotation: Rotation, transform: M.Matrix)

  /**
   * The orientation switch: a swap-chain rotation and the orientation transform, written
   * entry by entry as the source writes them; None stands for the default branch, which throws.
   */
  function OrientationSetup(o: DisplayOrientations): (r: Option<Setup>)
    ensures r.Some? <==> IsSupported(o)
    ensures r.Some? ==> r.value.rotation != Unspecified
    ensures r.Some? ==> (IsPortrait(o) <==> r.value.rotation in {Rotate90, Rotate270})
    ensures r.Some? ==> M.UnitEntries(r.value.transform)
  {
    if o == Landscape then
      Some(Setup(Identity, M.Matrix(M.Row(1, 0, 0, 0), M.Row(0, 1, 0, 0), M.Row(0, 0, 1, 0), M.Row(0, 0, 0, 1))))
    else if o == Portrait then
      Some(Setup(Rotate270, M.Matrix(M.Row(0, 1, 0, 0), M.Row(-1, 0, 0, 0), M.Row(0, 0, 1, 0), M.Row(0, 0, 0, 1))))
    else if o == LandscapeFlipped then
      Some(Setup(Rotate180, M.Matrix(M.Row(-1, 0, 0, 0), M.Row(0, -1, 0, 0), M.Row(0, 0, 1, 0), M.Row(0, 0, 0, 1))))
    else if o == PortraitFlipped then
      Some(Setup(Rotate90, M.Matrix(M.Row(0, -1, 0, 0), M.Row(1, 0, 0, 0), M.Row(0, 0, 1, 0), M.Row(0, 0, 0, 1))))
    else
      None
  }

  /** Each case's transform is the Z rotation that undoes the case's swap-chain rotation. */
  lemma TransformUndoesRotation(o: DisplayOrientations)
    requires IsSupported(o)
    ensures var s := OrientationSetup(o).value;
      s.transform == M.RotationZ(M.Negate(RotationTurn(s.rotation)))
  {
    OrientationTransformAngles();
  }

  /** The transform of each orientation is the Z rotation its case comment names. */
  lemma OrientationTransformAngles()
    ensures OrientationSetup(Landscape).value.transform == M.RotationZ(M.Turn0)
    ensures OrientationSetup(Portrait).value.transform == M.RotationZ(M.Turn90)
    ensures OrientationSetup(LandscapeFlipped).value.transform == M.RotationZ(M.Turn180)
    ensures OrientationSetup(PortraitFlipped).value.transform == M.RotationZ(M.Turn270)
  {
  }

  /**
   * Pre-rotating the content by the transform and then letting the compositor apply the
   * swap-chain rotation leaves the picture upright: the two rotations cancel.
   */
  lemma RotationCancelsTransform(o: DisplayOrientations)
    requires IsSupported(o)
    ensures var s := OrientationSetup(o).value;
      M.Multiply(s.transform, M.RotationZ(RotationTurn(s.rotation))) == M.Identity
  {
    var t := RotationTurn(OrientationSetup(o).value.rotation);
    TransformUndoesRotation(o);
    M.RotationInverse(t);
  }

  /** Turning by the Portrait transform twice is turning by the LandscapeFlipped one. */
  lemma PortraitTwiceIsLandscapeFlipped()
    ensures M.Multiply(OrientationSetup(Portrait).value.transform, OrientationSetup(Portrait).value.transform)
         == OrientationSetup(LandscapeFlipped).value.transform
  {
    OrientationTransformAngles();
    M.RotationComposeAt(OrientationSetup(Portrait).value.transform, OrientationSetup(Portrait).value.transform,
      OrientationSetup(LandscapeFlipped).value.transform, M.Turn90, M.Turn90);
  }

  /** The Portrait and PortraitFlipped transforms undo each other, in either order. */
  lemma PortraitTransformsInverse()
    ensures M.Multiply(OrientationSetup(Portrait).value.transform, OrientationSetup(PortraitFlipped).value.transform)
         == M.Identity
    ensures M.Multiply(OrientationSetup(PortraitFlipped).value.transform, OrientationSetup(Portrait).value.transform)
         == M.Identity
  {
    OrientationTransformAngles();
    M.RotationComposeAt(OrientationSetup(Portrait).value.transform, OrientationSetup(PortraitFlipped).value.transform,
      M.Identity, M.Turn90, M.Turn270);
    M.RotationComposeAt(OrientationSetup(PortraitFlipped).value.transform, OrientationSetup(Portrait).value.transform,
      M.Identity, M.Turn270, M.Turn90);
  }

  /** The DPI at which one DIP is one pixel. */
  const DipsPerInch: real := 96.0

  /** ConvertDipsToPixels: floor(dips * dpi / 96 + 0.5). */
  function ConvertDipsToPixels(dips: real, dpi: real): (px: int)
    ensures px as real - 0.5 <= dips * dpi / DipsPerInch < px as real + 0.5
  {
    (dips * dpi / DipsPerInch + 0.5).Floor
  }

  /** At 96 DPI a whole number of DIPs is that many pixels. */
  lemma ConvertAtDefaultDpi(n: int)
    ensures ConvertDipsToPixels(n as real, DipsPerInch) == n
  {
    var px := ConvertDipsToPixels(n as real, DipsPerInch);
    assert n as real * DipsPerInch / DipsPerInch == n as real;
  }

  /** More DIPs never give fewer pixels. */
  lemma ConvertMonotone(a: real, b: real, dpi: real)
    requires a <= b && 0.0 <= dpi
    ensures ConvertDipsToPixels(a, dpi) <= ConvertDipsToPixels(b, dpi)
  {
    assert a * dpi <= b * dpi;
  }

  /** A width and a height in whole pixels. */
  datatype PixelSize = PixelSize(width: int, height: int)

  /** The render-target size: the pixel extent, with width and height exchanged for portrait. */
  function RenderTargetSize(o: DisplayOrientations, widthPx: int, heightPx: int): (r: PixelSize)
    ensures o == Landscape || o == LandscapeFlipped ==> r == PixelSize(widthPx, heightPx)
    ensures o == Portrait || o == PortraitFlipped ==> r == PixelSize(heightPx, widthPx)
  {
    var swapDimensions := o == Portrait || o == PortraitFlipped;
    PixelSize(if swapDimensions then heightPx else widthPx, if swapDimensions then widthPx else heightPx)
  }

  /** The extent a buffer of the given size covers once the compositor turns it by r. */
  function Displayed(r: Rotation, size: PixelSize): PixelSize {
    if r == Rotate90 || r == Rotate270 then PixelSize(size.height, size.width) else size
  }

  /**
   * A render target sized for a supported orientation, turned by that orientation's
   * swap-chain rotation, covers exactly the window's pixel extent.
   */
  lemma RenderTargetFillsWindow(o: DisplayOrientations, widthPx: int, heightPx: int)
    requires IsSupported(o)
    ensures Displayed(OrientationSetup(o).value.rotation, RenderTargetSize(o, widthPx, heightPx))
         == PixelSize(widthPx, heightPx)
  {
  }
}

=== FILE: frame.dfy ===
/**
 * The command sequence of one CubeRenderer::Render call (with the two RenderObject calls it
 * makes), and what that sequence does to the pipeline: always two clears; while loading
 * nothing else; once loaded, one bind, one upload and four draws in a fixed order.
 */
module Frame {
  import opened Platform
  import opened Scene
  import opened Context

  /** The renderer's objects that RenderObject binds besides the vertex buffer. */
  datatype Bindings = Bindings(
    indexBuffer: Option<Handle>, inputLayout: Option<Handle>,
    vertexShader: Option<Handle>, constantBuffer: Option<Handle>, pixelShader: Option<Handle>,
    frontCull: Option<RasterizerDesc>, backCull: Option<RasterizerDesc>,
    indexCount: nat)

  /** The input-assembler and shader bindings RenderObject makes for one vertex buffer. */
  function BindObject(vertexBuffer: Option<Handle>, b: Bindings): seq<Command> {
    [ IASetVertexBuffers(vertexBuffer, VertexStride, 0),
      IASetIndexBuffer(b.indexBuffer),
      IASetTriangleList,
      IASetInputLayout(b.inputLayout),
      VSSetShader(b.vertexShader),
      VSSetConstantBuffers(b.constantBuffer),
      PSSetShader(b.pixelShader) ]
  }

  /** One pass: set a rasterizer state, then draw all the indices from the start. */
  function Pass(state: Option<RasterizerDesc>, indexCount: nat): seq<Command> {
    [RSSetState(state), DrawIndexed(indexCount, 0, 0)]
  }

  /** RenderObject: bind, then a front-cull pass and a back-cull pass. */
  function ObjectCommands(vertexBuffer: Option<Handle>, b: Bindings): seq<Command> {
    BindObject(vertexBuffer, b) + Pass(b.frontCull, b.indexCount) + Pass(b.backCull, b.indexCount)
  }

  /** The clears every frame starts with. */
  function Clears(rtv: Option<View>, dsv: Option<View>): seq<Command> {
    [ClearRenderTargetView(rtv, MidnightBlue), ClearDepthStencilView(dsv, ClearDepth)]
  }

  /** Render: the clears; then, once loaded, bind the targets, upload the constants, draw both objects. */
  function FrameCommands(
    loaded: bool, rtv: Option<View>, dsv: Option<View>, data: ConstantBufferData,
    vertexBuffer: Option<Handle>, vertexBuffer2: Option<Handle>, b: Bindings): seq<Command>
  {
    Clears(rtv, dsv) +
    if !loaded then []
    else [OMSetRenderTargets(rtv, dsv), UpdateSubresource(b.constantBuffer, data)]
         + ObjectCommands(vertexBuffer, b) + ObjectCommands(vertexBuffer2, b)
  }

  /** The draw a pass issues from pipeline p. */
  function DrawFrom(p: Pipeline, state: Option<RasterizerDesc>, indexCount: nat): Draw {
    Draw(p.renderTarget, p.depthStencil, p.viewport, p.vertexBuffer, p.indexBuffer, p.topology,
         p.inputLayout, p.vertexShader, p.pixelShader, state, BoundConstants(p), indexCount)
  }

  /** Replaying a non-empty run is replaying its first command, then the rest. */
  lemma ReplayCons(p: Pipeline, cs: seq<Command>)
    requires cs != []
    ensures Replay(p, cs) == Replay(Step(p, cs[0]), cs[1..])
  {
  }

  /** The input-assembler half of BindObject: vertex buffer, index buffer, topology. */
  lemma ReplayBindBuffers(p: Pipeline, vertexBuffer: Option<Handle>, b: Bindings)
    ensures Replay(p, BindObject(vertexBuffer, b)[..3])
         == p.(vertexBuffer := vertexBuffer, indexBuffer := b.indexBuffer, topology := TriangleList)
  {
    var cs := BindObject(vertexBuffer, b)[..3];
    var p1 := p.(vertexBuffer := vertexBuffer);
    var p2 := p1.(indexBuffer := b.indexBuffer);
    assert Replay(p2, cs[2..]) == p2.(topology := TriangleList) by {
      ReplayCons(p2, cs[2..]); assert cs[2..][1..] == [];
    }
    assert Replay(p1, cs[1..]) == Replay(p2, cs[2..]) by { ReplayCons(p1, cs[1..]); assert cs[1..][1..] == cs[2..]; }
    ReplayCons(p, cs);
  }

  /** The shader half of BindObject: input layout, both shaders, the constant buffer. */
  lemma ReplayBindShaders(p: Pipeline, vertexBuffer: Option<Handle>, b: Bindings)
    ensures Replay(p, BindObject(vertexBuffer, b)[3..])
         == p.(inputLayout := b.inputLayout, vertexShader := b.vertexShader,
               vsConstantBuffer := b.constantBuffer, pixelShader := b.pixelShader)
  {
    var first := [IASetInputLayout(b.inputLayout), VSSetShader(b.vertexShader)];
    var second := [VSSetConstantBuffers(b.constantBuffer), PSSetShader(b.pixelShader)];
    assert BindObject(vertexBuffer, b)[3..] == first + second;
    ReplayAppend(p, first, second);
    ReplayPair(p, first[0], first[1]);
    ReplayPair(Replay(p, first), second[0], second[1]);
  }

  /** Replaying two commands is stepping through both. */
  lemma ReplayPair(p: Pipeline, c: Command, d: Command)
    ensures Replay(p, [c, d]) == Step(Step(p, c), d)
  {
    assert [c, d][1..] == [d];
    assert Replay(Step(p, c), [d]) == Replay(Step(Step(p, c), d), []);
  }

  /**
   * RenderObject's bindings set the vertex buffer, the index buffer, the triangle-list
   * topology, the input layout, both shaders and the vertex shader's constant buffer, and
   * change nothing else: no target, no rasterizer state, no buffer contents, no draw.
   */
  lemma ReplayBindObject(p: Pipeline, vertexBuffer: Option<Handle>, b: Bindings)
    ensures Replay(p, BindObject(vertexBuffer, b))
         == p.(vertexBuffer := vertexBuffer, indexBuffer := b.indexBuffer, topology := TriangleList,
               inputLayout := b.inputLayout, vertexShader := b.vertexShader,
               vsConstantBuffer := b.constantBuffer, pixelShader := b.pixelShader)
  {
    var cs := BindObject(vertexBuffer, b);
    assert cs == cs[..3] + cs[3..];
    ReplayAppend(p, cs[..3], cs[3..]);
    ReplayBindBuffers(p, vertexBuffer, b);
    ReplayBindShaders(Replay(p, cs[..3]), vertexBuffer, b);
  }

  lemma ReplayPass(p: Pipeline, state: Option<RasterizerDesc>, indexCount: nat)
    ensures Replay(p, Pass(state, indexCount))
         == p.(rasterizer := state, draws := p.draws + [DrawFrom(p, state, indexCount)])
  {
    var cs := Pass(state, indexCount);
    var p1 := p.(rasterizer := state);
    assert Replay(p, cs) == Replay(p1, cs[1..]);
    assert Replay(p1, cs[1..]) == Replay(Step(p1, cs[1]), cs[2..]);
  }

  /** The pipeline RenderObject leaves bound for one vertex buffer. */
  function BoundFor(p: Pipeline, vertexBuffer: Option<Handle>, b: Bindings): Pipeline {
    p.(vertexBuffer := vertexBuffer, indexBuffer := b.indexBuffer, topology := TriangleList,
       inputLayout := b.inputLayout, vertexShader := b.vertexShader,
       vsConstantBuffer := b.constantBuffer, pixelShader := b.pixelShader)
  }

  /**
   * RenderObject binds the vertex buffer and the shared objects, and draws twice: first
   * under the front-cull state, then under the back-cull state, each time all indexCount indices.
   */
  lemma ReplayObject(p: Pipeline, vertexBuffer: Option<Handle>, b: Bindings)
    ensures var bound := BoundFor(p, vertexBuffer, b);
      Replay(p, ObjectCommands(vertexBuffer, b))
      == bound.(rasterizer := b.backCull,
                draws := p.draws + [DrawFrom(bound, b.frontCull, b.indexCount),
                                    DrawFrom(bound, b.backCull, b.indexCount)])
  {
    var bind, front, back := BindObject(vertexBuffer, b), Pass(b.frontCull, b.indexCount), Pass(b.backCull, b.indexCount);
    ReplayAppend(p, bind + front, back);
    ReplayAppend(p, bind, front);
    ReplayBindObject(p, vertexBuffer, b);
    var bound := BoundFor(p, vertexBuffer, b);
    ReplayPass(bound, b.frontCull, b.indexCount);
    var afterFront := bound.(rasterizer := b.frontCull, draws := p.draws + [DrawFrom(bound, b.frontCull, b.indexCount)]);
    ReplayPass(afterFront, b.backCull, b.indexCount);
  }

  /** Every frame begins with the colour clear (midnight blue) and the depth clear (1.0). */
  lemma FrameStartsWithClears(
    loaded: bool, rtv: Option<View>, dsv: Option<View>, data: ConstantBufferData,
    vertexBuffer: Option<Handle>, vertexBuffer2: Option<Handle>, b: Bindings)
    ensures var f := FrameCommands(loaded, rtv, dsv, data, vertexBuffer, vertexBuffer2, b);
      |f| >= 2 && f[0] == ClearRenderTargetView(rtv, MidnightBlue) && f[1] == ClearDepthStencilView(dsv, ClearDepth)
  {
  }

  /** While loading, a frame binds nothing, uploads nothing and draws nothing. */
  lemma LoadingFrameLeavesPipeline(
    p: Pipeline, rtv: Option<View>, dsv: Option<View>, data: ConstantBufferData,
    vertexBuffer: Option<Handle>, vertexBuffer2: Option<Handle>, b: Bindings)
    ensures Replay(p, FrameCommands(false, rtv, dsv, data, vertexBuffer, vertexBuffer2, b)) == p
  {
    ReplayIgnored(p, FrameCommands(false, rtv, dsv, data, vertexBuffer, vertexBuffer2, b));
  }

  /**
   * The draw a loaded frame issues for one vertex buffer under one rasterizer state: the
   * frame's targets, the viewport already in force (a frame sets none), the shared index
   * buffer, triangle list, layout and shaders, and the frame's constants when a constant
   * buffer is bound (none when the pointer is null).
   */
  function FrameDraw(
    rtv: Option<View>, dsv: Option<View>, viewport: Option<Viewport>, vertexBuffer: Option<Handle>,
    state: Option<RasterizerDesc>, data: ConstantBufferData, b: Bindings): Draw
  {
    Draw(rtv, dsv, viewport, vertexBuffer, b.indexBuffer, TriangleList, b.inputLayout, b.vertexShader, b.pixelShader,
         state, if b.constantBuffer.Some? then Some(data) else None, b.indexCount)
  }

  /**
   * The start of a loaded frame: the clears change nothing, then the targets are bound and
   * the constants are written into the constant buffer (nothing is written through a null one).
   */
  lemma ReplayFrameStart(p: Pipeline, rtv: Option<View>, dsv: Option<View>, data: ConstantBufferData, buffer: Option<Handle>)
    ensures var q := Replay(p, Clears(rtv, dsv) + [OMSetRenderTargets(rtv, dsv), UpdateSubresource(buffer, data)]);
      && q == p.(renderTarget := rtv, depthStencil := dsv, uploads := p.uploads + 1,
                 contents := if buffer.Some? then p.contents[buffer.value := data] else p.contents)
      && (buffer.Some? ==> q.contents[buffer.value] == data)
  {
    var clears, setup := Clears(rtv, dsv), [OMSetRenderTargets(rtv, dsv), UpdateSubresource(buffer, data)];
    ReplayAppend(p, clears, setup);
    ReplayIgnored(p, clears);
    var p1 := p.(renderTarget := rtv, depthStencil := dsv);
    assert Replay(p, setup) == Replay(p1, setup[1..]);
    assert Replay(p1, setup[1..]) == Replay(Step(p1, setup[1]), setup[2..]);
  }

  /**
   * A loaded frame uploads the constants exactly once and draws exactly four times, in this
   * order: the first object under the front-cull then the back-cull state, then the second
   * object likewise.  Every draw sees the frame's targets, the viewport in force before the
   * frame, the shared bindings and the constants just uploaded to the bound buffer.
   */
  lemma LoadedFrameDraws(
    p: Pipeline, rtv: Option<View>, dsv: Option<View>, data: ConstantBufferData,
    vertexBuffer: Option<Handle>, vertexBuffer2: Option<Handle>, b: Bindings)
    ensures var q := Replay(p, FrameCommands(true, rtv, dsv, data, vertexBuffer, vertexBuffer2, b));
      q.uploads == p.uploads + 1 &&
      q.draws == p.draws + [
        FrameDraw(rtv, dsv, p.viewport, vertexBuffer, b.frontCull, data, b),
        FrameDraw(rtv, dsv, p.viewport, vertexBuffer, b.backCull, data, b),
        FrameDraw(rtv, dsv, p.viewport, vertexBuffer2, b.frontCull, data, b),
        FrameDraw(rtv, dsv, p.viewport, vertexBuffer2, b.backCull, data, b)]
  {
    var start := Clears(rtv, dsv) + [OMSetRenderTargets(rtv, dsv), UpdateSubresource(b.constantBuffer, data)];
    var o1, o2 := ObjectCommands(vertexBuffer, b), ObjectCommands(vertexBuffer2, b);
    assert FrameCommands(true, rtv, dsv, data, vertexBuffer, vertexBuffer2, b) == (start + o1) + o2;
    ReplayAppend(p, start + o1, o2);
    ReplayAppend(p, start, o1);
    ReplayFrameStart(p, rtv, dsv, data, b.constantBuffer);
    var p2 := Replay(p, start);
    ReplayObject(p2, vertexBuffer, b);
    var p3 := Replay(p2, o1);
    ReplayObject(p3, vertexBuffer2, b);
  }

  /**
   * A frame appended to a history: a loading frame leaves the replayed pipeline as it was;
   * a loaded frame adds one upload and the four draws of LoadedFrameDraws.
   */
  lemma ReplayFrameAfter(
    p: Pipeline, history: seq<Command>, loaded: bool, rtv: Option<View>, dsv: Option<View>,
    data: ConstantBufferData, vertexBuffer: Option<Handle>, vertexBuffer2: Option<Handle>, b: Bindings)
    ensures var before := Replay(p, history);
      var after := Replay(p, history + FrameCommands(loaded, rtv, dsv, data, vertexBuffer, vertexBuffer2, b));
      if !loaded then after == before
      else
        && after.uploads == before.uploads + 1
        && after.draws == before.draws + [
          FrameDraw(rtv, dsv, before.viewport, vertexBuffer, b.frontCull, data, b),
          FrameDraw(rtv, dsv, before.viewport, vertexBuffer, b.backCull, data, b),
          FrameDraw(rtv, dsv, before.viewport, vertexBuffer2, b.frontCull, data, b),
          FrameDraw(rtv, dsv, before.viewport, vertexBuffer2, b.backCull, data, b)]
  {
    ReplayAppend(p, history, FrameCommands(loaded, rtv, dsv, data, vertexBuffer, vertexBuffer2, b));
    if loaded {
      LoadedFrameDraws(Replay(p, history), rtv, dsv, data, vertexBuffer, vertexBuffer2, b);
    } else {
      LoadingFrameLeavesPipeline(Replay(p, history), rtv, dsv, data, vertexBuffer, vertexBuffer2, b);
    }
  }
}

=== FILE: matrices.dfy ===
/**
 * Exact 4x4 integer matrices in DirectXMath's row-major, row-vector layout
 * (a point p is transformed as p * M).  The four orientation transforms of
 * the renderer have only 0 and +-1 entries, so they are modelled exactly.
 */
module Matrices {

  datatype Row = Row(x: int, y: int, z: int, w: int)

  datatype Matrix = Matrix(r0: Row, r1: Row, r2: Row, r3: Row)

  predicate IsUnit(k: int) { k == -1 || k == 0 || k == 1 }

  predicate UnitRow(r: Row) { IsUnit(r.x) && IsUnit(r.y) && IsUnit(r.z) && IsUnit(r.w) }

  /** Every entry is 0, 1 or -1. */
  predicate UnitEntries(m: Matrix) {
    UnitRow(m.r0) && UnitRow(m.r1) && UnitRow(m.r2) && UnitRow(m.r3)
  }

  /** a * k for a unit k, written without multiplication. */
  function Times(a: int, k: int): int
    requires IsUnit(k)
  {
    if k == 0 then 0 else if k == 1 then a else -a
  }

  /** The dot product of (a0, a1, a2, a3) and the unit vector (b0, b1, b2, b3). */
  function Dot(a0: int, a1: int, a2: int, a3: int, b0: int, b1: int, b2: int, b3: int): int
    requires IsUnit(b0) && IsUnit(b1) && IsUnit(b2) && IsUnit(b3)
  {
    Times(a0, b0) + Times(a1, b1) + Times(a2, b2) + Times(a3, b3)
  }

  /** The row vector v times m. */
  function RowTimes(v: Row, m: Matrix): Row
    requires UnitEntries(m)
  {
    Row(
      Dot(v.x, v.y, v.z, v.w, m.r0.x, m.r1.x, m.r2.x, m.r3.x),
      Dot(v.x, v.y, v.z, v.w, m.r0.y, m.r1.y, m.r2.y, m.r3.y),
      Dot(v.x, v.y, v.z, v.w, m.r0.z, m.r1.z, m.r2.z, m.r3.z),
      Dot(v.x, v.y, v.z, v.w, m.r0.w, m.r1.w, m.r2.w, m.r3.w))
  }

  /** XMMatrixMultiply(a, b): apply a, then b. */
  function Multiply(a: Matrix, b: Matrix): Matrix
    requires UnitEntries(b)
  {
    Matrix(RowTimes(a.r0, b), RowTimes(a.r1, b), RowTimes(a.r2, b), RowTimes(a.r3, b))
  }

  /** A zero-initialised XMFLOAT4X4. */
  const Zero: Matrix :=
    Matrix(Row(0, 0, 0, 0), Row(0, 0, 0, 0), Row(0, 0, 0, 0), Row(0, 0, 0, 0))

  const Identity: Matrix :=
    Matrix(Row(1, 0, 0, 0), Row(0, 1, 0, 0), Row(0, 0, 1, 0), Row(0, 0, 0, 1))

  /** A rotation angle that is a whole number of quarter turns. */
  datatype Turn = Turn0 | Turn90 | Turn180 | Turn270

  function QuarterTurns(t: Turn): (n: nat)
    ensures n < 4
  {
    match t
    case Turn0 => 0
    case Turn90 => 1
    case Turn180 => 2
    case Turn270 => 3
  }

  function FromQuarterTurns(n: nat): (t: Turn)
    requires n < 4
    ensures QuarterTurns(t) == n
  {
    if n == 0 then Turn0 else if n == 1 then Turn90 else if n == 2 then Turn180 else Turn270
  }

  /** a followed by b, modulo a full turn. */
  function Plus(a: Turn, b: Turn): Turn {
    var n := QuarterTurns(a) + QuarterTurns(b);
    FromQuarterTurns(if n >= 4 then n - 4 else n)
  }

  /** The opposite rotation. */
  function Negate(a: Turn): (t: Turn)
    ensures Plus(a, t) == Turn0
  {
    FromQuarterTurns(if a == Turn0 then 0 else 4 - QuarterTurns(a))
  }

  /**
   * The rotation about Z with the given cosine and sine, laid out as
   * XMMatrixRotationZ lays it out: first row (cos, sin), second row (-sin, cos).
   */
  function RotationFrom(cos: int, sin: int): (m: Matrix)
    ensures IsUnit(cos) && IsUnit(sin) ==> UnitEntries(m)
  {
    Matrix(
      Row(cos, sin, 0, 0),
      Row(-sin, cos, 0, 0),
      Row(0, 0, 1, 0),
      Row(0, 0, 0, 1))
  }

  /** The cosine of a quarter-turn angle. */
  function Cos(t: Turn): (c: int)
    ensures IsUnit(c)
  {
    match t
    case Turn0 => 1
    case Turn90 => 0
    case Turn180 => -1
    case Turn270 => 0
  }

  /** The sine of a quarter-turn angle. */
  function Sin(t: Turn): (s: int)
    ensures IsUnit(s)
  {
    match t
    case Turn0 => 0
    case Turn90 => 1
    case Turn180 => 0
    case Turn270 => -1
  }

  /** The angle-sum identities, for quarter turns. */
  lemma AngleSum(a: Turn, b: Turn)
    ensures Cos(Plus(a, b)) == Times(Cos(a), Cos(b)) - Times(Sin(a), Sin(b))
    ensures Sin(Plus(a, b)) == Times(Sin(a), Cos(b)) + Times(Cos(a), Sin(b))
  {
  }

  /** The rotation about Z by t, from the cosine and sine of t. */
  function RotationZ(t: Turn): (m: Matrix)
    ensures UnitEntries(m)
  {
    RotationFrom(Cos(t), Sin(t))
  }

  /** The first row of a rotation, times a rotation. */
  lemma RotationProductRow0(c1: int, s1: int, c2: int, s2: int)
    requires IsUnit(c2) && IsUnit(s2)
    ensures RowTimes(Row(c1, s1, 0, 0), RotationFrom(c2, s2))
         == Row(Times(c1, c2) - Times(s1, s2), Times(s1, c2) + Times(c1, s2), 0, 0)
  {
  }

  /** The second row of a rotation, times a rotation. */
  lemma RotationProductRow1(c1: int, s1: int, c2: int, s2: int)
    requires IsUnit(c2) && IsUnit(s2)
    ensures RowTimes(Row(-s1, c1, 0, 0), RotationFrom(c2, s2))
         == Row(-(Times(s1, c2) + Times(c1, s2)), Times(c1, c2) - Times(s1, s2), 0, 0)
  {
  }

  /** The z and w axes are fixed by a rotation about Z. */
  lemma RotationFixesZW(c: int, s: int)
    requires IsUnit(c) && IsUnit(s)
    ensures RowTimes(Row(0, 0, 1, 0), RotationFrom(c, s)) == Row(0, 0, 1, 0)
    ensures RowTimes(Row(0, 0, 0, 1), RotationFrom(c, s)) == Row(0, 0, 0, 1)
  {
  }

  /** The product of two rotations, entry by entry. */
  lemma RotationProduct(c1: int, s1: int, c2: int, s2: int)
    requires IsUnit(c2) && IsUnit(s2)
    ensures Multiply(RotationFrom(c1, s1), RotationFrom(c2, s2))
         == RotationFrom(Times(c1, c2) - Times(s1, s2), Times(s1, c2) + Times(c1, s2))
  {
    RotationProductRow0(c1, s1, c2, s2);
    RotationProductRow1(c1, s1, c2, s2);
    RotationFixesZW(c2, s2);
  }

  /** RotationProduct, for matrices and angle-sum values given by name. */
  lemma ProductOfRotations(ma: Matrix, mb: Matrix, m: Matrix, c1: int, s1: int, c2: int, s2: int, c: int, s: int)
    requires ma == RotationFrom(c1, s1) && mb == RotationFrom(c2, s2) && m == RotationFrom(c, s)
    requires IsUnit(c2) && IsUnit(s2)
    requires c == Times(c1, c2) - Times(s1, s2) && s == Times(s1, c2) + Times(c1, s2)
    ensures UnitEntries(mb) && Multiply(ma, mb) == m
  {
    assert m == RotationFrom(Times(c1, c2) - Times(s1, s2), Times(s1, c2) + Times(c1, s2));
    RotationProduct(c1, s1, c2, s2);
  }

  /** Rotating by a and then by b is rotating by a + b. */
  lemma RotationCompose(a: Turn, b: Turn)
    ensures Multiply(RotationZ(a), RotationZ(b)) == RotationZ(Plus(a, b))
  {
    var c, s := Cos(Plus(a, b)), Sin(Plus(a, b));
    assert c == Times(Cos(a), Cos(b)) - Times(Sin(a), Sin(b)) by { AngleSum(a, b); }
    assert s == Times(Sin(a), Cos(b)) + Times(Cos(a), Sin(b)) by { AngleSum(a, b); }
    ProductOfRotations(RotationZ(a), RotationZ(b), RotationZ(Plus(a, b)),
      Cos(a), Sin(a), Cos(b), Sin(b), c, s);
  }

  /** RotationCompose, for matrices given by name. */
  lemma RotationComposeAt(ma: Matrix, mb: Matrix, m: Matrix, a: Turn, b: Turn)
    requires ma == RotationZ(a) && mb == RotationZ(b) && m == RotationZ(Plus(a, b))
    ensures UnitEntries(mb) && Multiply(ma, mb) == m
  {
    RotationCompose(a, b);
  }

  /** No turn is no rotation. */
  lemma RotationZero()
    ensures RotationZ(Turn0) == Identity
  {
  }

  /** Opposite rotations cancel, in either order. */
  lemma RotationInverse(t: Turn)
    ensures Multiply(RotationZ(t), RotationZ(Negate(t))) == Identity
    ensures Multiply(RotationZ(Negate(t)), RotationZ(t)) == Identity
  {
    RotationZero();
    RotationCompose(t, Negate(t));
    RotationCompose(Negate(t), t);
  }
}

=== FILE: platform.dfy ===
/**
 * What the renderer reads from the platform: the window, the display
 * orientation and DPI, the outcome of every Direct3D / DXGI call it makes,
 * and the failures it can raise.  The graphics API itself is not modelled;
 * each call is named by an `Api` value and either succeeds or fails.
 */
module Platform {

  datatype Option<T> = None | Some(value: T)

  /** Windows.Graphics.Display.DisplayOrientations, a flags enumeration. */
  type DisplayOrientations = int

  const OrientationNone: DisplayOrientations := 0
  const Landscape: DisplayOrientations := 1
  const Portrait: DisplayOrientations := 2
  const LandscapeFlipped: DisplayOrientations := 4
  const PortraitFlipped: DisplayOrientations := 8

  /** A window rectangle in device-independent pixels (DIPs). */
  datatype Rect = Rect(x: real, y: real, width: real, height: real)

  /** What the renderer asks of the core window and of DisplayProperties. */
  datatype Window = Window(bounds: Rect, orientation: DisplayOrientations, logicalDpi: real)

  /** Every Direct3D / DXGI / file call whose result the renderer looks at (or ignores). */
  datatype Api =
    // Direct3DBase::CreateDeviceResources
    | CreateDevice | QueryDevice1 | QueryContext1
    // Direct3DBase::CreateWindowSizeDependentResources
    | ResizeBuffers
    | QueryDxgiDevice | GetAdapter | GetFactory | CreateSwapChainForCoreWindow | SetMaximumFrameLatency
    | SetRotation | GetBuffer | CreateRenderTargetView | CreateTexture2D | CreateDepthStencilView
    // CubeRenderer::CreateDeviceResources, vertex shader task
    | ReadVertexShaderFile | CreateVertexShader | CreateInputLayout
    // CubeRenderer::CreateDeviceResources, pixel shader task
    | ReadPixelShaderFile | CreatePixelShader | CreateConstantBuffer
    // CubeRenderer::CreateDeviceResources, geometry task
    | CreateVertexBuffer | CreateVertexBuffer2 | CreateIndexBuffer
    | CreateRasterizerStateFront | CreateRasterizerStateBack

  /** The graphics driver and file system, reduced to which calls fail. */
  datatype Gpu = Gpu(failing: set<Api>) {
    predicate Fails(api: Api) { api in failing }
  }

  /** The exceptions the renderer lets escape to the host. */
  datatype Failure =
    | ApiFailed(api: Api)                      // DX::ThrowIfFailed on a failing HRESULT
    | UnsupportedOrientation(orientation: int) // the default branch of the orientation switch
    | PresentFailed(hr: int)                   // a failing Present1 result other than device removal
    | NullSwapChain                            // Present1 called through a null swap-chain pointer

  datatype Status = Ok | Thrown(failure: Failure)

  /** HRESULTs are signed 32-bit values; a negative one is a failure. */
  predicate Failed(hr: int) { hr < 0 }

  /** DXGI_ERROR_DEVICE_REMOVED, 0x887A0005 read as a signed 32-bit value. */
  const DeviceRemoved: int := 0x887A_0005 - 0x1_0000_0000
}

=== FILE: scenarios.dfy ===
/**
 * Call sequences the application makes on one CubeRenderer, with what they lead to: the
 * first loaded frame, a repeated size-changed event, and device loss.
 */
module Scenarios {
  import opened Platform
  import opened Context
  import Frame
  import Scene
  import Display
  import D = Direct3DBase
  import opened CubeRenderer

  /**
   * Start-up with no failing call: construct, initialize, let the loading chain run, render.
   * The first loaded frame draws four times, all indices of the shared index list each time,
   * into the window's render target, as a triangle list through the loaded layout and
   * shaders, with the constants uploaded to the constant buffer the vertex shader reads, and
   * through the viewport the size-dependent set-up installed.
   */
  method StartUpAndRender(window: Window) returns (r: CubeRenderer)
    requires Display.IsSupported(window.orientation)
    ensures fresh(r) && fresh(r.base) && r.Valid()
    ensures r.loadingComplete && r.base.SurfaceReady()
    ensures var draws := Replay(FreshPipeline, r.base.commands).draws;
      |draws| == 4 && forall i :: 0 <= i < 4 ==>
        && draws[i].indexCount == 3 && draws[i].renderTarget == r.base.renderTargetView
        && draws[i].topology == TriangleList && draws[i].inputLayout == r.inputLayout != None
        && draws[i].vertexShader == r.vertexShader != None && draws[i].pixelShader == r.pixelShader != None
        && draws[i].constants == Some(r.constantBufferData)
        && draws[i].viewport == r.base.viewport != None
  {
    r := StartUp(window);
    Frame.ReplayFrameAfter(FreshPipeline, r.base.commands, true, r.base.renderTargetView, r.base.depthStencilView,
      r.constantBufferData, r.vertexBuffer, r.vertexBuffer2, r.CurrentBindings());
    r.Render();
  }

  /**
   * Construction, initialization and the loading chain with no failing call: the surface is
   * ready, loading is complete, and nothing issued so far binds, uploads or draws: the only
   * command that reaches the pipeline is the viewport of the render-target size.
   */
  method StartUp(window: Window) returns (r: CubeRenderer)
    requires Display.IsSupported(window.orientation)
    ensures fresh(r) && fresh(r.base) && r.Valid()
    ensures r.loadingComplete && r.indexCount == 3 && r.base.SurfaceReady() && r.base.context.Some?
    ensures r.inputLayout.Some? && r.vertexShader.Some? && r.pixelShader.Some? && r.constantBuffer.Some?
    ensures Replay(FreshPipeline, r.base.commands) == FreshPipeline.(viewport := r.base.viewport)
  {
    var gpu := Gpu({});
    r := InitializeCleanly(window, gpu);
    RunLoadingChain(r, gpu);
  }

  /**
   * Construction and initialization with no failing call: the surface is ready, the chain is
   * pending, and the log holds the one viewport command of the size-dependent set-up.
   */
  method InitializeCleanly(window: Window, gpu: Gpu) returns (r: CubeRenderer)
    requires Display.IsSupported(window.orientation) && gpu.failing == {}
    ensures fresh(r) && fresh(r.base) && r.Valid()
    ensures r.TaskStates() == Tasks(Pending, Pending, Pending, Pending)
    ensures r.base.SurfaceReady() && r.base.device.Some? && r.base.context.Some?
    ensures Replay(FreshPipeline, r.base.commands) == FreshPipeline.(viewport := r.base.viewport)
  {
    r := new CubeRenderer();
    var status := r.Initialize(window, gpu);
    assert D.AllSucceed(gpu, D.DeviceCalls) && D.AllSucceed(gpu, D.SwapChainCalls(false)) && D.AllSucceed(gpu, D.ViewCalls);
    assert status.Ok?;
    assert r.base.commands == [NewImmediateContext] + [RSSetViewports(r.base.viewport.value)];
    ReplayNewContext(FreshPipeline, []);
    assert [] + [NewImmediateContext] == [NewImmediateContext];
    ReplaySetsViewport(FreshPipeline, [NewImmediateContext], r.base.viewport.value);
  }

  /** The loading chain, run to its end with no failing call, completes the loading. */
  method RunLoadingChain(r: CubeRenderer, gpu: Gpu)
    requires r.Valid() && r.TaskStates() == Tasks(Pending, Pending, Pending, Pending)
    requires r.base.device.Some? && gpu.failing == {}
    modifies r
    ensures r.Valid() && r.loadingComplete && r.indexCount == 3
    ensures r.TaskStates() == Tasks(Done, Done, Done, Done)
    ensures r.vertexBuffer.Some? && r.vertexBuffer2.Some? && r.indexBuffer.Some?
    ensures r.inputLayout.Some? && r.vertexShader.Some? && r.pixelShader.Some? && r.constantBuffer.Some?
    ensures r.rasterizerState == Some(Scene.FrontCullDesc) && r.rasterizerStateBack == Some(Scene.BackCullDesc)
    ensures r.constantBufferData == old(r.constantBufferData)
  {
    assert D.AllSucceed(gpu, VertexShaderCalls) && D.AllSucceed(gpu, PixelShaderCalls) && D.AllSucceed(gpu, GeometryCalls);
    r.RunVertexShaderTask(gpu);
    r.RunPixelShaderTask(gpu);
    r.RunGeometryTask(gpu);
    r.RunCompletionTask();
  }

  /** A second size-changed event for the same window rebuilds nothing. */
  method SizeChangedTwice(r: CubeRenderer, window: Window, gpu: Gpu) returns (status: Status)
    requires r.Valid() && r.base.device.Some? && r.base.context.Some?
    modifies r, r.base
    ensures r.base.sizeRebuilds <= old(r.base.sizeRebuilds) + 1
  {
    status := r.UpdateForWindowSizeChange(window, gpu);
    if status.Thrown? {
      return;
    }
    status := r.UpdateForWindowSizeChange(window, gpu);
  }

  /**
   * A size change, then a frame: a frame sets no viewport of its own, so its four draws use
   * the one the rebuild installed, covering the new render target.
   */
  method ResizeThenRender(r: CubeRenderer, window: Window, gpu: Gpu) returns (status: Status)
    requires r.Valid() && r.loadingComplete && r.base.device.Some? && r.base.context.Some?
    requires r.base.SizeChanged(window)
    modifies r, r.base
    ensures status.Ok? ==>
      && r.base.viewport == Some(Viewport(0, 0, r.base.renderTargetSize.width, r.base.renderTargetSize.height))
      && var draws := Replay(FreshPipeline, r.base.commands).draws;
         |draws| >= 4 && forall i :: |draws| - 4 <= i < |draws| ==> draws[i].viewport == r.base.viewport
  {
    ghost var before := r.base.commands;
    status := r.UpdateForWindowSizeChange(window, gpu);
    if status.Thrown? {
      return;
    }
    ReplaySetsViewport(FreshPipeline, before + [OMSetRenderTargets(None, None), Flush], r.base.viewport.value);
    Frame.ReplayFrameAfter(FreshPipeline, r.base.commands, true, r.base.renderTargetView, r.base.depthStencilView,
      r.constantBufferData, r.vertexBuffer, r.vertexBuffer2, r.CurrentBindings());
    r.Render();
  }

  /**
   * Device loss while the window reports a 0x0 size and the same orientation: the reset
   * bounds already match, so nothing is rebuilt and the swap chain stays null; the next
   * Present then goes through the null swap chain.
   */
  method DeviceLostWithEmptyWindow(r: CubeRenderer, window: Window, gpu: Gpu, hr: int) returns (status: Status)
    requires r.Valid() && !D.CallsStatus(gpu, D.DeviceCalls).Thrown?
    requires window.bounds.width == 0.0 && window.bounds.height == 0.0 && window.orientation == r.base.orientation
    modifies r, r.base
    ensures status == Thrown(NullSwapChain)
  {
    status := r.HandleDeviceLost(window, gpu);
    assert r.base.swapChain.None?;
    status := r.Present(hr, window, gpu);
  }

  /**
   * The viewport in force after device-loss recovery: the new context has none, so it is the
   * rebuild's when a rebuild ran, and none otherwise.
   */
  lemma RecoveredViewport(before: seq<Command>, after: seq<Command>, rebuild: bool, viewport: Option<Viewport>)
    requires rebuild ==>
      && viewport.Some?
      && after == before + [NewImmediateContext, OMSetRenderTargets(None, None), Flush, RSSetViewports(viewport.value)]
    requires !rebuild ==> after == before + [NewImmediateContext]
    ensures Replay(FreshPipeline, after).viewport == (if rebuild then viewport else None)
  {
    if rebuild {
      var cs := before + [NewImmediateContext, OMSetRenderTargets(None, None), Flush];
      assert after == cs + [RSSetViewports(viewport.value)];
      ReplaySetsViewport(FreshPipeline, cs, viewport.value);
    } else {
      ReplayNewContext(FreshPipeline, before);
    }
  }

  /**
   * Device loss after loading: m_loadingComplete stays set while the objects are still the
   * ones the removed device created, so when the surface is rebuilt, a frame rendered before
   * the restarted loading chain finishes draws with them.  The new context has no viewport
   * until a rebuild sets one: with a 0x0 window and the same orientation, that frame's draws
   * have none.
   */
  method DeviceLostAfterLoading(r: CubeRenderer, window: Window, gpu: Gpu) returns (status: Status)
    requires r.Valid() && r.loadingComplete && r.base.context.Some?
    requires r.vertexBuffer.Some? && r.vertexBuffer.value.device <= r.base.devicesCreated
    requires D.CallsStatus(gpu, D.DeviceCalls).Ok?
    modifies r, r.base
    ensures r.loadingComplete && r.base.device.Some?
    ensures status.Ok? ==> var draws := Replay(FreshPipeline, r.base.commands).draws;
      |draws| >= 4 && draws[|draws| - 4].vertexBuffer == r.vertexBuffer
      && r.vertexBuffer.Some? && r.vertexBuffer.value.device != r.base.device.value
    ensures status.Ok? ==>
      var rebuild := window.bounds.width != 0.0 || window.bounds.height != 0.0 || window.orientation != old(r.base.orientation);
      var draws := Replay(FreshPipeline, r.base.commands).draws;
      |draws| >= 4 && forall i :: |draws| - 4 <= i < |draws| ==>
        draws[i].viewport == (if rebuild then r.base.viewport else None)
  {
    ghost var before := r.base.commands;
    ghost var rebuild := window.bounds.width != 0.0 || window.bounds.height != 0.0 || window.orientation != r.base.orientation;
    status := r.HandleDeviceLost(window, gpu);
    if status.Ok? {
      RecoveredViewport(before, r.base.commands, rebuild, r.base.viewport);
      Frame.ReplayFrameAfter(FreshPipeline, r.base.commands, true, r.base.renderTargetView, r.base.depthStencilView,
        r.constantBufferData, r.vertexBuffer, r.vertexBuffer2, r.CurrentBindings());
      r.Render();
    }
  }
}

=== FILE: scene.dfy ===
/**
 * The fixed data of the renderer: the two triangles, their shared index list, the two
 * rasterizer states, the clear colour, and the model/view/projection constant buffer whose
 * matrices are kept as symbolic DirectXMath expressions.
 */
module Scene {
  import M = Matrices

  /** XMFLOAT3. */
  datatype Float3 = Float3(x: real, y: real, z: real)

  /** VertexPositionColor: a position and a colour, two XMFLOAT3s. */
  datatype Vertex = Vertex(pos: Float3, color: Float3)

  /** sizeof(VertexPositionColor): six 4-byte floats. */
  const VertexStride: nat := 24

  /** The first object's vertex buffer contents: a white triangle. */
  const Triangle: seq<Vertex> := [
    Vertex(Float3(0.5, 0.0, 0.0), Float3(1.0, 1.0, 1.0)),
    Vertex(Float3(0.0, 0.0, 0.0), Float3(1.0, 1.0, 1.0)),
    Vertex(Float3(0.0, 0.5, 0.0), Float3(1.0, 1.0, 1.0))
  ]

  /** The second object's vertex buffer contents: a cyan triangle. */
  const Triangle2: seq<Vertex> := [
    Vertex(Float3(-1.0, 0.0, 0.0), Float3(0.6, 1.0, 1.0)),
    Vertex(Float3(0.0, 0.0, 0.0), Float3(0.6, 1.0, 1.0)),
    Vertex(Float3(0.0, -1.0, 0.0), Float3(0.6, 1.0, 1.0))
  ]

  /** The shared 16-bit index list. */
  const TriangleIndices: seq<int> := [0, 1, 2]

  /** An index list is usable with a vertex list when every index is a 16-bit value naming a vertex. */
  predicate IndicesInBounds(indices: seq<int>, vertexCount: nat) {
    forall i :: 0 <= i < |indices| ==> 0 <= indices[i] < vertexCount && indices[i] < 0x1_0000
  }

  /** Both objects' vertex lists can be drawn with the shared index list, all of it. */
  lemma SceneIndicesInBounds()
    ensures |TriangleIndices| == 3
    ensures IndicesInBounds(TriangleIndices, |Triangle|)
    ensures IndicesInBounds(TriangleIndices, |Triangle2|)
  {
  }

  datatype FillMode = Solid | Wireframe
  datatype CullMode = CullNone | CullFront | CullBack

  /** The fields of D3D11_RASTERIZER_DESC the renderer sets (the rest stay zero). */
  datatype RasterizerDesc = RasterizerDesc(fill: FillMode, cull: CullMode, frontCounterClockwise: bool)

  /** The description handed to the first CreateRasterizerState call. */
  const FrontCullDesc: RasterizerDesc := RasterizerDesc(Solid, CullFront, true)

  /** The same description after its cull mode is switched, for the second call. */
  const BackCullDesc: RasterizerDesc := FrontCullDesc.(cull := CullBack)

  /** The two states are solid and counter-clockwise-front, and differ in the cull mode alone. */
  lemma RasterizerStatesDifferInCullOnly()
    ensures FrontCullDesc.fill == Solid && BackCullDesc.fill == Solid
    ensures FrontCullDesc.frontCounterClockwise && BackCullDesc.frontCounterClockwise
    ensures FrontCullDesc.cull == CullFront && BackCullDesc.cull == CullBack
  {
  }

  /** An RGBA clear colour. */
  datatype Color = Color(r: real, g: real, b: real, a: real)

  const MidnightBlue: Color := Color(0.098, 0.098, 0.439, 1.0)

  /** The depth the depth buffer is cleared to. */
  const ClearDepth: real := 1.0

  /**
   * A DirectXMath matrix expression, left unevaluated: which computation produced a
   * matrix, not its floating-point entries.
   */
  datatype MatrixTerm =
    | Zero
    | Transpose(m: MatrixTerm)
    | Multiply(a: MatrixTerm, b: MatrixTerm)
    | Load(entries: M.Matrix)
    | LookAtRH(eye: Float3, at: Float3, up: Float3)
    | RotationY(angleOverPi: real)
    | PerspectiveFovRH(fovDegrees: real, aspectWidth: real, aspectHeight: real, nearZ: real, farZ: real)

  /** ModelViewProjectionConstantBuffer. */
  datatype ConstantBufferData = ConstantBufferData(model: MatrixTerm, view: MatrixTerm, projection: MatrixTerm)

  /** A value-initialised constant buffer: every matrix zero. */
  const InitialConstants: ConstantBufferData := ConstantBufferData(Zero, Zero, Zero)

  /** The camera of Update. */
  const Eye: Float3 := Float3(0.0, 0.7, 1.5)
  const At: Float3 := Float3(0.0, -0.1, 0.0)
  const Up: Float3 := Float3(0.0, 1.0, 0.0)

  /** The view matrix Update stores, transposed for the shader. */
  function ViewMatrix(): MatrixTerm {
    Transpose(LookAtRH(Eye, At, Up))
  }

  /** The model matrix Update stores: a turn about Y by timeTotal * pi / 4, transposed. */
  function ModelMatrix(timeTotal: real): MatrixTerm {
    Transpose(RotationY(timeTotal / 4.0))
  }

  /**
   * The projection the resize path stores: a 70-degree right-handed perspective with the
   * window's DIP width over height as aspect ratio, near 0.01 and far 100, post-multiplied
   * by the orientation transform, transposed for the shader.
   */
  function ProjectionMatrix(boundsWidth: real, boundsHeight: real, orientation: M.Matrix): MatrixTerm {
    Transpose(Multiply(PerspectiveFovRH(70.0, boundsWidth, boundsHeight, 0.01, 100.0), Load(orientation)))
  }
}
